=== FILE: README.md ===
# Black-hole wallpaper renderers, modelled in Dafny

The repository draws an animated black hole in the browser, in three variants:

- **script-simple.js**: a Canvas-2D renderer. It has trail-carrying particles, an accretion disk of 25 elliptical rings per lobe with eight orbiting hotspots, two relativistic jets, a Hawking-radiation ring, a star field and a table of named presets.
- **script-webgl.js**: a three.js renderer. It draws a shader disk, a black-hole sphere and a lens pass, plus a 2-D particle overlay whose `Particle` class is the same code, line for line, as in script-simple.js.
- **script.js**: the first Canvas-2D renderer. Its particle has no trail, and off-screen particles are recycled onto the respawn annulus. Its disk has 15 rings that turn and wrap, and its stars bounce their brightness inside [0, 1].

This project models the per-frame state logic of the three renderers:

- the particle integrator (pull, swirl, damping, absorption, recycling, trail);
- the numbers the draw calls are given;
- the disk;
- the jet and radiation pools;
- the configuration with its presets and slider handlers;
- initialisation, reset and one animation frame.

Modelling choices:

- Everything is immutable data with pure functions.
- Trigonometry, `Math.sqrt` and `Math.random` are inputs:
  - a draw is a `Uniform` in [0, 1);
  - an angle enters as its (cos, sin) pair, a `Dir` of unit length; the atan2 direction infinite zoom reads is tied to the escaped point's offset (`PointsAlong`);
  - a distance enters as a number whose square is the squared offset (`IsDistance`).
- Random streams are functions from an index to the draws of one object.

Modules, one per concept:

| module | file | what it holds |
|---|---|---|
| `Wrappers` | wrappers.dfy | `Option` |
| `Geometry` | geometry.dfy | vectors, the canvas, the engine's floating `%` |
| `SimConfig` | config.dfy | configuration, preset table, mass slider |
| `Gravity` | gravity.dfy | kick, damping, respawn annulus |
| `Trails` | trails.dfy | the ten-point trail |
| `Particles` | particles.dfy | the trail-carrying particle |
| `Pools` | pools.dfy | advance-then-filter pools |
| `Emitters` | emitters.dfy | jets and Hawking radiation |
| `Disk` | disk.dfy | the 25-ring disk |
| `Field` | field.dfy | particle array population and resizing |
| `Scene` | scene.dfy | the script-simple.js scene |
| `WebglScene` | webgl.dfy | the three.js renderer's own state |
| `Classic` | classic.dfy | script.js |

## Model

| member | source | states |
|---|---|---|
| SimConfig.PresetNamed | script-simple.js:6-39 | A preset is found exactly for the four table keys, and it is that key's entry. |
| SimConfig.SetMass | script-simple.js:686-696 | The mass slider sets the mass, radius 0.4 · mass, horizon 1.5 · radius and preset 'custom', and changes no other field. |
| SimConfig.SetMassIdempotent | script-simple.js:686-696 | Moving the slider to the same mass twice is the same as once. |
| SimConfig.WithPreset | script-simple.js:603-627 | A preset switch takes the preset's name, mass, radius, speed and count, with horizon 1.5 radii, and keeps every other switch and slider. |
| SimConfig.DefaultsPairRadiusWithOwnHorizon | script-simple.js:59-75 | The start-up radius 60 follows the mass 150. The start-up horizon 80 is not the 1.5 radii (90) that the slider derives, in both renderers' defaults. |
| Geometry.PhaseMod | script-simple.js:399-402 | The engine's `%` by a full turn keeps the sign, stays below a turn in magnitude, and removes whole turns only. |
| Gravity.Kick | script-simple.js:109-123 | Within one pixel of the centre no force acts and the velocity is only scaled by 0.99. Beyond it, the component along the unit offset to the centre becomes 0.99·(old component + g·mass/dist²). The component across it becomes 0.99·(old component + 0.3·spin·g·mass/dist²). |
| Gravity.ImpulseSplitsIntoPullAndSwirl | script-simple.js:109-120 | Beyond one pixel the impulse has component g·mass/dist² along the unit offset and 0.3·spin times that across it. |
| Gravity.KickFromRest | script-simple.js:109-126 | From rest, the new velocity is 0.99 times pull and swirl. At g 500, mass 150, dist 300 the pull is 5/6. |
| Gravity.RespawnRadius | script-simple.js:96-98 | The respawn distance is at least 300 and below 300 + 0.7 · max(width, height). |
| Gravity.RespawnPos | script-simple.js:96-101 | The respawned point's offset from the centre has exactly the respawn distance as its length. |
| Gravity.FreshVelocity | script-simple.js:87-88 | Each component of a fresh velocity is in [-1, 1). |
| Particles.Spawn | script-simple.js:79-94 | A new particle lies on the canvas. It has life 1, an empty trail, size in [0.5, 2.5), hue in [200, 260) and velocity in [-1, 1) per component. |
| Particles.AbsorbedOnTwentiethTick | script-simple.js:128-137 | Held inside the radius, a fresh particle loses 0.05 per tick and is respawned with life 1 on the twentieth tick. |
| Particles.Move | script-simple.js:103-126 | The new velocity is the gravity kick with this configuration's strength, mass and spin. The particle moves by its new velocity. Life, size, hue and trail are untouched. |
| Particles.Absorb | script-simple.js:128-137 | Life drops only strictly inside the radius. A used-up particle gets the respawn point, a fresh velocity and an empty trail; otherwise position, velocity and trail are kept. |
| Particles.Recycle | script-simple.js:139-146 | The position changes only with infinite zoom on and the point outside the 100-pixel margin. It then goes to centre − exitDir · max side / 2. |
| Particles.RecycleMirrorsThroughCentre | script-simple.js:139-146 | When exitDir points along the escaped point's offset, the new point is on the same line through the centre, on the opposite side, half the longer side from the centre. |
| Particles.RecycleCanLandOutsideMargin | script-simple.js:139-146 | On a 1920×1080 canvas the relocated point can itself be outside the margin. |
| Particles.NextTrail | script-simple.js:148-153 | Within 400 pixels the point is pushed; otherwise the trail is emptied. |
| Particles.Tick | script-simple.js:103-154 | Valid particles stay valid: life in (0, 1], trail ≤ 10. Life drops by 0.05 only strictly inside the radius and resets to 1 with a fresh velocity. The dist ≤ 1 case only damps. A particle that is not respawned gets the gravity kick as its new velocity. With infinite zoom, a point that left the margin is mirrored through the centre to half the longer side. The trail holds the last ten pushed points, or none beyond 400. script-webgl.js:319-370 is the same code. |
| Particles.RecycleTouchesOnlyPosition | script-simple.js:139-153 | A tick under any configuration gives the same velocity, life, size, hue and trail length as the same tick with zoom off, and the same trail apart from its newest point. |
| Particles.Stretch | script-simple.js:173-177 | The ellipse ratio is 1 from two radii out, in (1, 4] inside, and 4 at the centre. script-webgl.js:390-393 is the same code. |
| Particles.StretchGrowsTowardHole | script-simple.js:173-177 | A nearer particle is never less stretched. |
| Particles.Redshift | script-simple.js:179-185 | The hue offset is 0 from three radii out, in (0, 80] inside, and 80 at the centre. script-webgl.js:396-401 is the same code. |
| Particles.RedshiftGrowsTowardHole | script-simple.js:179-185 | A nearer particle is never less redshifted. |
| Particles.Draw | script-simple.js:156-198 | The body ellipse has radii size · Stretch(dist) and size, hue + Redshift(dist) as hue and alpha life; the trail alpha is 0.3 · life. The distance is the particle's own distance to the centre. A trail is stroked exactly when it has two or more points. |
| Particles.NearerIsDrawnMoreDistorted | script-simple.js:157-185 | Of two particles of one hue, the nearer one is drawn at least as stretched and at least as red-shifted. |
| Trails.Push | script-simple.js:148-150 | A pushed trail of at most ten is the last ten of the old trail plus the point, and ends with the point. |
| Trails.PushKeepsOlder | script-simple.js:148-150 | Two pushes onto the same trail differ only in the newest point. |
| Trails.PushAllKeepsLastTen | script-simple.js:148-150 | After any run of pushes the trail is exactly the last ten points pushed. |
| Pools.Survivors | script-simple.js:343-347 | The filter keeps at most the pool's size. Every survivor qualifies, every member that qualifies after its step survives, and each survivor is some member's step. |
| Pools.SurvivorsOfAppend | script-simple.js:333-347 | Culling keeps arrival order: a newcomer appended before the filter comes out last, if it survives. |
| Pools.SurvivorsKeepInvariant | script-simple.js:343-347 | A property every member has, and that each kept step preserves, holds for every survivor. |
| Pools.AdmitThenSurvive | script-simple.js:332-347 | After one tick every member left is the step of an old member or of the admitted newcomer. Every old member that qualifies after its step is kept, and an admitted newcomer that qualifies comes last. |
| Emitters.LaunchWellFormed | script-simple.js:333-341 | A new jet drop moves away from the disk on its own side at 5 to 10 pixels a tick, with life in (0, 1] and hue in [180, 220). |
| Emitters.UpdateJet | script-simple.js:332-348 | A jet keeps its side and grows by at most one drop, never past 50. Every drop left is a visible drift (y + vy, life − 0.01) of an old drop or of the drop launched this tick. Every old drop still visible after its drift is kept, and a launched visible drop comes last. The jet stays well formed. |
| Emitters.JetStaysWellFormed | script-simple.js:332-347 | After launch and cull, every drop of a well-formed jet is still a well-formed drop of that side. |
| Emitters.DriftNMoves | script-simple.js:343-346 | After k ticks a drop has moved k steps and lost k hundredths of life. |
| Emitters.JetDropLifetime | script-simple.js:333-347 | A launched drop is culled by its hundredth tick at the latest, and while alive it is strictly on its own side of the centre. |
| Emitters.UpdateHawking | script-simple.js:367-386 | The pool grows by at most one spark, never past 30. Every spark left is a live flight (pos + vel, life − 0.02) of an old spark or of the one emitted this tick. Every old spark still alive after its flight is kept, and an emitted live spark comes last. A well-formed pool stays well formed. |
| Emitters.HawkingStaysWellFormed | script-simple.js:367-386 | After emission and cull, every spark of a well-formed pool is still a well-formed spark. |
| Emitters.EmitWellFormed | script-simple.js:368-378 | A new spark has speed exactly 2, life 1 and hue in [0, 360). |
| Emitters.SparksStartOnRay | script-simple.js:368-378 | A new spark starts on the Schwarzschild circle along its own velocity. |
| Emitters.SparksStayOnRay | script-simple.js:380-385 | Each tick keeps a spark on its emission ray, at rs/2 + 50 · (1 − life) times its velocity. |
| Disk.NewHotspot | script-simple.js:208-214 | A hotspot has angle in [0, 2π), speed in [0.001, 0.003) and intensity in [0, 1). |
| Disk.NewDisk | script-simple.js:203-215 | A new disk has eight hotspots, each built from its own draws. |
| Disk.UpdateDisk | script-simple.js:217-221 | Every hotspot advances by speed · accretion speed, keeps its speed and intensity, and none is added or lost. |
| Disk.HotspotsTurnUniformly | script-simple.js:217-221 | After k frames each hotspot has turned by exactly k · speed · accretion speed. |
| Disk.Ring | script-simple.js:223-236 | Ring edges lie on the 1.5 rs to 4 rs scale and widen outward. Temperature is 1 − ring/25, with 0.18 flattening and a lobe offset of ±0.3 rs. |
| Disk.RingRadiusRises | script-simple.js:223-226 | Ring edges move strictly outward with the ring index. |
| Disk.RingColor | script-simple.js:239-255 | Every tier's channels are in [0, 255] and its opacity in [0, 1]. |
| Disk.FarLobeIsFainter | script-simple.js:239-255 | At every temperature the far lobe has the same colour at a strictly lower opacity. |
| Disk.HotterIsBrighter | script-simple.js:239-255 | Opacity and green rise strictly with temperature, across the tier boundaries too. |
| Disk.BorderOnInnerThirteen | script-simple.js:274-280 | The bright border is drawn exactly on rings 0 to 12. |
| Disk.BlobOf | script-simple.js:284-290 | A hotspot blob orbits between the ring's edges, with size in [0, 25 · temperature]. |
| Disk.DrawRing | script-simple.js:223-302 | A ring has its border exactly on rings 0 to 12. Even rings get one blob per hotspot and odd rings none. |
| Disk.DrawDisk | script-simple.js:307-321 | A frame draws 50 rings: the near lobe's 0 to 24, then the far lobe's 0 to 24, at one clock reading. |
| Disk.BlobsPerFrame | script-simple.js:283-321 | A frame draws 26 blobs per hotspot (208 for eight hotspots). |
| Field.Populate | script-simple.js:580-583 | The loop builds exactly the requested number of fresh particles, in order. |
| Field.ResizeByCount | script-simple.js:698-710 | Growing past the configured count appends the difference; otherwise a prefix is kept. An array that matched its count ends with the new count. |
| Field.ResizeByLength | script.js:433-446 | The array ends with exactly the new count: old particles plus fresh ones, or a prefix. |
| Scene.NewStar | script-simple.js:587-595 | A new star lies on the canvas, with size in [0.5, 2.5) and phase in [0, 2π). |
| Scene.Twinkle | script-simple.js:399-402 | A star keeps its place and size, and a non-negative phase stays in [0, 2π). |
| Scene.TwinkleWraps | script-simple.js:402 | A phase advances by exactly 0.02, wrapping by one turn once past 2π. |
| Scene.StarOpacity | script-simple.js:403 | A star's opacity stays in [0.05, 0.35]. |
| Scene.InitScene | script-simple.js:578-601 | Start-up builds the configured number of fresh valid particles, 400 stars and eight hotspots. Both jets and the radiation pool start empty. |
| Scene.ApplyPreset | script-simple.js:603-631 | An unknown name changes nothing. A known one sets the configuration, and rebuilds the particles exactly when the count differs. Array and count stay in step. |
| Scene.ApplyPresetIdempotent | script-simple.js:603-631 | Choosing the same preset twice is the same as choosing it once. |
| Scene.OnMassInput | script-simple.js:686-696 | The mass slider changes the configuration only, and keeps array and count in step. |
| Scene.OnParticleCountInput | script-simple.js:698-710 | The count handler appends or keeps a prefix against the configured count, records the new count, and keeps array and count in step. |
| Scene.Scatter | script-simple.js:811-814 | A scattered star keeps size and phase and lands on the new canvas. |
| Scene.OnWindowResize | script-simple.js:809-815 | A resize records the new canvas and scatters every star over it. Nothing else changes. |
| Scene.FrameShowsExactlySwitchedOn | script-simple.js:634-682 | A frame paints the fixed layers always and each optional one exactly when switched on. The lens runs only when on and live. |
| Scene.FrameInPainterOrder | script-simple.js:634-682 | No layer is painted twice: depths rise strictly, so the particles come after the black hole. The fade is always first. The lens pass, when it runs, is last, and otherwise the particle field is. |
| Scene.TickAll | script-simple.js:673-677 | The particle pass keeps the array's length, ticks particle i with its own draws, and keeps valid particles valid. |
| Scene.TwinkleAll | script-simple.js:399-402 | The star pass twinkles every star in place and keeps the count. |
| Scene.JetFrame | script-simple.js:660-665 | A switched-off jet is left as it was; a switched-on one gets exactly one jet update. A well-formed jet stays well formed. |
| Scene.HawkingFrame | script-simple.js:667-670 | Switched-off radiation is left as it was; switched-on radiation gets exactly one update. The pool stays within its cap of 30, and a well-formed pool stays well formed. |
| Scene.Animate | script-simple.js:634-676 | The clock advances by 0.016, stars twinkle, the disk turns and particles tick. Jets and radiation get exactly one update when switched on and are untouched otherwise. Both stay well formed and capped. |
| WebglScene.InitGpu | script-webgl.js:138-252 | The disk shader spans 1.5 to 8 radii at the configured speed. The sphere is unscaled. The lens takes the radius and the strength divided by 100. |
| WebglScene.StartupSphereFits | script-webgl.js:249-252 | At start-up the sphere has the configured radius. |
| WebglScene.InitParticles | script-webgl.js:418-423 | `initParticles` builds the configured number of fresh valid particles. |
| WebglScene.PresetGpu | script-webgl.js:450-469 | A preset switch updates exactly the GPU objects that exist. |
| WebglScene.ApplyPreset | script-webgl.js:426-472 | An unknown name changes nothing. Otherwise the configuration is set and the particles are rebuilt only when the count differs. The GPU values are set from the preset. |
| WebglScene.PresetSizesGpuToRadius | script-webgl.js:450-469 | After a preset switch the disk spans 1.5 to 8 radii at the preset speed. The sphere, scaled by rs/60, has the radius, and the lens uses it. |
| WebglScene.OnMassInput | script-webgl.js:567-577 | The mass slider changes the configuration and touches no GPU value. |
| WebglScene.MassSliderLeavesDiskAtOldRadius | script-webgl.js:567-577 | After the slider moves to mass 200 the radius is 80, but the disk and the sphere still fit radius 60. |
| WebglScene.OnAccretionInput | script-webgl.js:603-609 | The speed slider sets the speed and the disk's speed uniform when the disk exists, and nothing else. |
| WebglScene.OnParticleCountInput | script-webgl.js:579-591 | The count handler records the new count. Past the configured count it appends exactly the difference in fresh particles; otherwise it keeps the first newCount. An array that matched its count ends with the new count. |
| WebglScene.Animate | script-webgl.js:476-516 | The clock advances by 0.016 and the disk and sphere clocks follow. The disk turns by 0.001 · speed and every particle ticks. With the GLSL lens on, the lens takes clock, radius and strength/100. |
| WebglScene.LensCatchesUpWithinAFrame | script-webgl.js:485-489 | With the lens on, one frame after the mass slider the lens uses the new radius. |
| Classic.ClassicSetMass | script.js:423-429 | The mass slider gives radius 60 · mass/150 and horizon 80 · mass/150, so the horizon is 4/3 of the radius. Nothing else changes. |
| Classic.DefaultsAgreeWithMassSlider | script.js:18-28 | The start-up configuration is what the slider gives for mass 150. |
| Classic.SpawnMote | script.js:32-49 | The trail-less particle has the same draws and ranges as the trail-carrying one. |
| Classic.MoveMote | script.js:58-86 | The new velocity is the gravity kick. The particle moves by it, and life, size and hue are untouched. |
| Classic.AbsorbMote | script.js:88-96 | Life drops only strictly inside the radius. A used-up particle respawns with a fresh velocity; otherwise position and velocity are kept. |
| Classic.ClassicTick | script.js:58-104 | Valid particles stay valid. Only absorption refills life and redraws velocity. Otherwise the new velocity is the gravity kick. Recycling places the particle on the respawn annulus and keeps velocity and life. |
| Classic.RecycledMoteCanLandOffScreen | script.js:99-104 | A recycled particle can land outside the margin, so it is recycled again. |
| Classic.RespawnClearsTheHorizon | script.js:51-56 | A respawned particle starts at least 300 pixels out, so outside any radius below 300. |
| Classic.Intensity | script.js:113 | Intensity is in (0, 1]. It is 1 exactly up to 500 pixels, and 500/dist beyond. |
| Classic.ClassicRedshift | script.js:116 | Redshift is 0 exactly from 500 pixels out and at most 1 for non-negative distances. |
| Classic.NearerIsBrighterAndRedder | script.js:112-117 | A nearer particle is at least as bright and at least as redshifted. |
| Classic.DrawMote | script.js:107-134 | The alpha is life times the intensity min(1, 500/dist): in (0, life] for a valid particle, and exactly life within 500 pixels. The hue is raised by 60 times the redshift, staying in [hue, hue + 60]. The glow is drawn exactly within 300 pixels, with blur 10 times the intensity. |
| Classic.NearerMoteIsDrawnBrighter | script.js:107-134 | The same particle drawn from nearer the centre has at least its alpha, hue and glow blur. |
| Classic.NewRing | script.js:153-160 | Ring i lies i/15 of the way from rs + 20 to horizon + 150. Its speed · 15 is 0.3 − 0.015i, and its draws are in range. |
| Classic.NewClassicDisk | script.js:147-162 | A new disk has fifteen rings, the i-th from its own draws. |
| Classic.RingsSpreadOutward | script.js:150-157 | The first ring is at rs + 20. Rings spread strictly outward exactly when the outer bound exceeds the inner, and then stay below it. |
| Classic.RingsSlowOutward | script.js:156 | Each ring turns strictly slower than the one inside it. |
| Classic.MassSliderKeepsRingsApart | script.js:423-429 | For any non-negative mass the outer ring bound exceeds the inner one. |
| Classic.Wrap | script.js:166-167 | The angle steps by the increment, less one turn exactly when the sum passes a turn. An angle in [0, 2π] stays there under a step in [0, 2π]. |
| Classic.TurnRing | script.js:164-169 | Only the ring's angle changes. It stays in [0, 2π] under a step in [0, 2π]. |
| Classic.UpdateClassicDisk | script.js:164-169 | Every ring is turned and no ring is added or lost. |
| Classic.TurnRingNWraps | script.js:164-169 | n frames of turning a ring change only its angle, by n wrapped steps of its own increment. |
| Classic.WrapNStaysInOneTurn | script.js:164-169 | Any number of wrapped steps keeps the angle in [0, 2π]. |
| Classic.WrapNLosesWholeTurns | script.js:164-169 | n wrapped steps differ from n plain steps by a whole number of turns. |
| Classic.TurnsStayInOneTurn | script.js:164-169 | However many frames pass, a ring's angle stays in [0, 2π] and nothing else about it changes. |
| Classic.NewRingStepsWithinOneTurn | script.js:156-158 | For accretion speeds 0 to 100 every new ring starts in [0, 2π) with a step within one turn. |
| Classic.RingHue | script.js:179-180 | A ring's hue is in [200, 280) and rises by 80/15 per ring. |
| Classic.DrawClassicRing | script.js:171-196 | A ring is stroked at its own radius and thickness. The gradient runs from 10 px inside to 10 px outside and peaks at the ring's opacity. The glow has blur 20 and half the opacity. The hue is the index formula, in [200, 280) for the 15 rings. |
| Classic.DrawClassicDisk | script.js:171-197 | Every ring is drawn, in order, each with the hue of its own index. |
| Classic.OuterRingsDrawnWarmer | script.js:178-180 | A ring later in the disk is drawn with a strictly higher hue. |
| Classic.NewClassicStar | script.js:277-283 | A new star lies on the canvas. Size is below 1.5, brightness in [0, 1), and twinkle speed in [0.01, 0.03). |
| Classic.Bounce | script.js:285-289 | Brightness steps by the twinkle speed. The speed flips exactly when the result leaves [0, 1], and its magnitude is kept. |
| Classic.BounceKeepsBrightnessNearRange | script.js:277-289 | A new star is bouncing, and each frame keeps it bouncing: brightness within one step of [0, 1], with the step pointing back when outside. |
| Classic.StarAlphaNearRange | script.js:285-292 | A bouncing star's alpha is within 0.8 of a step of [0, 0.8]. |
| Classic.InitMotes | script.js:138-143 | `initParticles` builds the configured number of fresh valid particles. |
| Classic.InitClassicStars | script.js:298-304 | `initStars` builds 200 stars, all bouncing. |
| Classic.OnClassicMassInput | script.js:423-430 | The mass slider sets the configuration and rebuilds the disk for the new radii. |
| Classic.OnClassicParticleCountInput | script.js:433-446 | The array ends with exactly the new count. Growth keeps the old particles as a prefix, and each appended slot is a freshly spawned, valid particle from its own draws. Shrinking keeps a prefix. If every particle was valid before, every one is valid after. |
| Classic.OnReset | script.js:480-507 | Reset restores the defaults, 2000 fresh particles and a new disk, and keeps the stars. |
| Classic.ResetDiskMatchesMass150 | script.js:480-507 | The reset disk is the one the mass slider builds for mass 150. |
| Classic.ClassicFrame | script.js:382-418 | Stars bounce, the disk turns, every particle ticks, and valid particles stay valid. |

## Left out

- webgl-lens.js and shaders.js: GLSL shaders and WebGL plumbing run on the GPU. Only the lens pass's uniforms and whether it runs are modelled.
- three.js: scene, camera, geometry and the render calls. Only the values the renderer writes into its meshes and passes are modelled.
- All canvas drawing calls, gradients and shadows. The model keeps only the numbers they are given: ring shapes, colours, blob positions, sprite stretch, hue and alpha.
- Not modelled as drawing:
  - the black-hole disc;
  - the ergosphere and frame-dragging spirals, which are painted layers only;
  - script.js's distorted background grid;
  - script.js's commented-out pixel lens (script.js:233-273).
- Floating point. All arithmetic is exact over `real`. Math.sin, Math.cos, Math.atan2 and Math.sqrt enter as inputs with their defining properties; Math.random enters as a draw in [0, 1).
- The clock: `Date.now()` and the frame timer are parameters.
- The `respawn = true` constructor path: no caller uses it.
- The gravity and lens-strength sliders and the on/off switches. They only assign one configuration field each. The accretion slider is modelled for script-webgl.js only, where it also writes a uniform.
- script-webgl.js's `distortionEnabled` and `timeDilation` flags: nothing reads them.
- `parseInt`/`parseFloat` of slider text, NaN included: sliders deliver a number within their range.
- The DOM: panel show and hide, `location.reload`, console output and the FPS counter. Reset in script-simple.js and script-webgl.js is a page reload, so it re-runs start-up.
- SimConfig.PresetNamed: preset names come only from the preset selector's options. A JavaScript property lookup would also find inherited keys such as "constructor", which would write undefined into the configuration; Scene.ApplyPreset and WebglScene.ApplyPreset treat every name outside the table as unknown.
- Classic.TurnsStayInOneTurn: this lemma states only the range and that nothing else changes. The statement that wrapped turns differ from plain turns by whole turns is carried by Classic.WrapNLosesWholeTurns.

## Observations

- The start-up configurations of script-simple.js and script-webgl.js pair radius 60 with horizon 80. Every later assignment derives the horizon as 1.5 radii (90). Nothing in those two files reads the horizon, so this changes no behaviour.
- In script-webgl.js the mass slider changes the radius but not the disk shader's radii or the sphere's scale; only a preset switch resizes them. The lens pass catches up on the next frame (`WebglScene.MassSliderLeavesDiskAtOldRadius`, `WebglScene.LensCatchesUpWithinAFrame`).
- Infinite-zoom relocation in script-simple.js and script-webgl.js, and the recycling respawn of script.js, can place a particle outside the margin again (`Particles.RecycleCanLandOutsideMargin`, `Classic.RecycledMoteCanLandOffScreen`).
- After a respawn the same tick pushes the respawn point onto the just-emptied trail when the particle was within 400 pixels. The trail therefore holds at most one point, not none (`Particles.Tick`).

=== FILE: classic.dfy ===
/**
 The first Canvas-2D renderer (script.js): a trail-less particle whose
 off-screen recycling respawns it on the annulus, a disk of 15 evenly spaced
 rings that turn and wrap, stars whose brightness bounces inside [0, 1], its
 own configuration with the mass slider, the particle-count slider and the
 reset button, and one animation frame.
 */
module Classic {
  import opened Geometry
  import opened Gravity
  import opened Particles
  import opened Field

  /** The `config` object of script.js; the mass and the sliders are parsed as floats. */
  datatype ClassicConfig = ClassicConfig(
    blackHoleMass: real,
    particleCount: nat,
    gravityStrength: real,
    lensStrength: real,
    accretionSpeed: real,
    distortionEnabled: bool,
    infiniteZoom: bool,
    eventHorizon: real,
    schwarzschildRadius: real
  )

  /** The start-up configuration, which the reset button restores. */
  const ClassicDefaults: ClassicConfig := ClassicConfig(150.0, 2000, 500.0, 50.0, 5.0, true, true, 80.0, 60.0)

  /** The mass slider: the horizon becomes 80 * (mass / 150) and the radius 60 * (mass / 150). */
  function ClassicSetMass(c: ClassicConfig, mass: real): (r: ClassicConfig)
    ensures r.blackHoleMass == mass
    ensures r.schwarzschildRadius * 150.0 == 60.0 * mass && r.eventHorizon * 150.0 == 80.0 * mass
    ensures r.eventHorizon * 3.0 == r.schwarzschildRadius * 4.0
    ensures r == c.(blackHoleMass := r.blackHoleMass, eventHorizon := r.eventHorizon,
                    schwarzschildRadius := r.schwarzschildRadius)
  {
    c.(blackHoleMass := mass, eventHorizon := 80.0 * (mass / 150.0), schwarzschildRadius := 60.0 * (mass / 150.0))
  }

  /** The defaults are what the mass slider itself gives for a mass of 150. */
  lemma DefaultsAgreeWithMassSlider()
    ensures ClassicSetMass(ClassicDefaults, 150.0) == ClassicDefaults
  {
  }

  /** Products of non-negative bounds bound the product. */
  lemma ProductBelow(a: real, b: real, x: real, y: real)
    requires 0.0 <= a <= x && 0.0 <= b <= y
    ensures 0.0 <= a * b <= x * y
  {
    assert a * b <= x * b;
    assert x * b <= x * y;
  }

  /** The difference of two multiples is the multiple of the difference. */
  lemma Spread(a: real, x: real, y: real)
    ensures a * x - a * y == a * (x - y)
    ensures x * a - y * a == (x - y) * a
  {
  }

  /** A product with a positive factor has the other factor's sign. */
  lemma SignOfProduct(a: real, b: real)
    requires b > 0.0
    ensures a > 0.0 <==> a * b > 0.0
    ensures a <= 0.0 ==> a * b <= 0.0
  {
  }

  /** A non-negative product with a positive factor has a non-negative other factor. */
  lemma NonNegativeFactor(a: real, b: real)
    requires a * b >= 0.0 && b > 0.0
    ensures a >= 0.0
  {
    SignOfProduct(a, b);
  }

  /** Scaling by a factor in (0, 1] keeps a positive number positive and no larger. */
  lemma Dimmed(a: real, f: real)
    requires 0.0 < f <= 1.0
    ensures a > 0.0 ==> 0.0 < a * f <= a
  {
    if a > 0.0 {
      ProductBelow(a, f, a, 1.0);
    }
  }

  // ----- Particle -----

  /** The script.js particle: as in the other renderers, but without a trail. */
  datatype Mote = Mote(pos: Vec, vel: Vec, life: real, size: real, hue: real) {

    predicate Valid() {
      0.0 < life <= 1.0
    }
  }

  /** `new Particle()`: the same draws and ranges as the trail-carrying particle's constructor. */
  function SpawnMote(view: View, d: SpawnDraws): (m: Mote)
    ensures var p := Spawn(view, d);
      m.pos == p.pos && m.vel == p.vel && m.life == p.life && m.size == p.size && m.hue == p.hue
    ensures m.Valid() && m.life == 1.0
    ensures 0.0 <= m.pos.x <= view.W() && 0.0 <= m.pos.y <= view.H()
  {
    var p := Spawn(view, d);
    Mote(p.pos, p.vel, p.life, p.size, p.hue)
  }

  /**
   What one tick takes from outside: Math.sqrt of the squared distance to the
   centre, the draws of an absorption respawn (angle, radius, velocity), and
   the angle and radius draws of a recycling respawn.
   */
  datatype ClassicTickInput = ClassicTickInput(dist: real, absorb: RespawnDraws, recycleDir: Dir, urecycle: Uniform)

  /** Kick, damping and the move by the new velocity. */
  function MoveMote(m: Mote, cfg: ClassicConfig, view: View, dist: real): (r: Mote)
    requires IsDistance(dist, view.Center().Minus(m.pos))
    ensures r.pos == m.pos.Plus(r.vel)
    ensures r.vel == Kick(m.vel, view.Center().Minus(m.pos), dist, cfg.gravityStrength, cfg.blackHoleMass, cfg.accretionSpeed)
    ensures r.life == m.life && r.size == m.size && r.hue == m.hue
  {
    var v := Kick(m.vel, view.Center().Minus(m.pos), dist, cfg.gravityStrength, cfg.blackHoleMass, cfg.accretionSpeed);
    m.(vel := v, pos := m.pos.Plus(v))
  }

  /** The tick started strictly inside the radius and the life lost there used the particle up. */
  predicate Absorbed(m: Mote, cfg: ClassicConfig, dist: real) {
    dist < cfg.schwarzschildRadius && m.life - AbsorbRate <= 0.0
  }

  /** The moved particle left the canvas grown by 100 pixels while infinite zoom is on. */
  predicate Recycled(m: Mote, cfg: ClassicConfig, view: View) {
    cfg.infiniteZoom && !view.WithinMargin(m.pos, ZoomMargin)
  }

  /** The absorption step: lose 0.05 of life inside the radius, and respawn with full life and a new velocity when used up. */
  function AbsorbMote(m: Mote, cfg: ClassicConfig, view: View, dist: real, rd: RespawnDraws): (r: Mote)
    ensures r.life == NextLife(m.life, dist < cfg.schwarzschildRadius)
    ensures r.size == m.size && r.hue == m.hue
    ensures Absorbed(m, cfg, dist) ==> r.pos == RespawnPos(view, rd.dir, rd.udist) && r.vel == FreshVelocity(rd.uvx, rd.uvy)
    ensures !Absorbed(m, cfg, dist) ==> r.pos == m.pos && r.vel == m.vel
  {
    if dist < cfg.schwarzschildRadius then
      if m.life - AbsorbRate <= 0.0 then
        m.(pos := RespawnPos(view, rd.dir, rd.udist), life := 1.0, vel := FreshVelocity(rd.uvx, rd.uvy))
      else m.(life := m.life - AbsorbRate)
    else m
  }

  /**
   `Particle.update()` of script.js: move, absorb, then, with infinite zoom
   on, respawn a particle that has left the margin. Life stays in (0, 1];
   only absorption refills it and redraws the velocity, while recycling moves
   the particle onto the annulus and keeps its velocity and life.
   */
  function ClassicTick(m: Mote, cfg: ClassicConfig, view: View, inp: ClassicTickInput): (r: Mote)
    requires IsDistance(inp.dist, view.Center().Minus(m.pos))
    ensures m.Valid() ==> r.Valid()
    ensures r.size == m.size && r.hue == m.hue
    ensures r.life == NextLife(m.life, inp.dist < cfg.schwarzschildRadius)
    ensures inp.dist >= cfg.schwarzschildRadius ==> r.life == m.life
    ensures inp.dist < cfg.schwarzschildRadius && m.life > AbsorbRate ==> r.life == m.life - AbsorbRate
    ensures Absorbed(m, cfg, inp.dist) ==> r.vel == FreshVelocity(inp.absorb.uvx, inp.absorb.uvy)
    ensures !Absorbed(m, cfg, inp.dist) ==>
      r.vel == Kick(m.vel, view.Center().Minus(m.pos), inp.dist, cfg.gravityStrength, cfg.blackHoleMass, cfg.accretionSpeed)
    ensures var a := AbsorbMote(MoveMote(m, cfg, view, inp.dist), cfg, view, inp.dist, inp.absorb);
      (Recycled(a, cfg, view) ==>
        IsDistance(RespawnRadius(view, inp.urecycle), r.pos.Minus(view.Center())) && r.vel == a.vel && r.life == a.life) &&
      (!Recycled(a, cfg, view) ==> r == a)
    ensures !Absorbed(m, cfg, inp.dist) && !cfg.infiniteZoom ==> r.pos == m.pos.Plus(r.vel)
  {
    var moved := MoveMote(m, cfg, view, inp.dist);
    var a := AbsorbMote(moved, cfg, view, inp.dist, inp.absorb);
    if Recycled(a, cfg, view) then a.(pos := RespawnPos(view, inp.recycleDir, inp.urecycle)) else a
  }

  /**
   The recycling respawn can itself land outside the margin, so the particle
   is recycled again on the next tick: on a 1920 by 1080 canvas, straight
   down at half the spread, the particle lands at y = 1512, beyond 1180.
   */
  lemma RecycledMoteCanLandOffScreen()
    ensures var view := View(1920, 1080);
      var p := RespawnPos(view, Vec(0.0, 1.0), 0.5);
      p == Vec(960.0, 1512.0) && !view.WithinMargin(p, ZoomMargin)
  {
    var view := View(1920, 1080);
    assert view.MaxSide() == 1920.0;
    assert view.Center() == Vec(960.0, 540.0);
    assert RespawnRadius(view, 0.5) == 972.0;
  }

  /**
   A respawned particle always starts at least 300 pixels from the centre,
   so outside the Schwarzschild radius whenever that is below 300.
   */
  lemma RespawnClearsTheHorizon(view: View, dir: Dir, u: Uniform, rs: real)
    requires 0.0 <= rs < RespawnInner
    ensures var n := RespawnPos(view, dir, u).Minus(view.Center()).NormSq();
      n >= RespawnInner * RespawnInner && n > rs * rs
  {
    var d := RespawnRadius(view, u);
    var n := RespawnPos(view, dir, u).Minus(view.Center()).NormSq();
    assert n == d * d;
    assert d >= RespawnInner;
    ProductBelow(RespawnInner, RespawnInner, d, d);
    ProductBelow(rs, rs, rs, RespawnInner);
    assert rs * RespawnInner < RespawnInner * RespawnInner;
    assert rs * rs < RespawnInner * RespawnInner;
  }

  /** `Math.min(1, 500 / dist)`: full intensity up to 500 pixels, then falling as 500 / dist. */
  function Intensity(dist: real): (i: real)
    ensures 0.0 < i <= 1.0
    ensures i == 1.0 <==> dist <= 500.0
    ensures dist > 500.0 ==> i * dist == 500.0
  {
    if dist <= 500.0 then 1.0 else 500.0 / dist
  }

  /** `Math.max(0, 1 - dist / 500)`: zero from 500 pixels out, at most one for a distance that is not negative. */
  function ClassicRedshift(dist: real): (z: real)
    ensures z >= 0.0
    ensures z == 0.0 <==> dist >= 500.0
    ensures dist >= 0.0 ==> z <= 1.0
    ensures dist < 500.0 ==> z * 500.0 == 500.0 - dist
  {
    if 1.0 - dist / 500.0 > 0.0 then 1.0 - dist / 500.0 else 0.0
  }

  /** A nearer particle is at least as bright and at least as red-shifted. */
  lemma NearerIsBrighterAndRedder(d1: real, d2: real)
    requires 0.0 <= d1 <= d2
    ensures Intensity(d1) >= Intensity(d2)
    ensures ClassicRedshift(d1) >= ClassicRedshift(d2)
  {
    if d1 > 500.0 {
      var i1, i2 := Intensity(d1), Intensity(d2);
      var q := i1 - i2;
      assert q * d1 == i2 * (d2 - d1);
      assert i2 * (d2 - d1) >= 0.0;
      NonNegativeFactor(q, d1);
    }
  }

  /**
   The numbers the draw call uses: the intensity that scales the fill alpha
   and the glow, the fill alpha, the shifted hue, whether the glow pass runs
   (only within 300 pixels) and the shadow blur of that pass.
   */
  datatype MoteLook = MoteLook(intensity: real, alpha: real, hue: real, glow: bool, shadowBlur: real)

  /**
   Drawing a particle at distance `dist` from the centre: its life dimmed by
   the intensity, its hue raised by up to 60 degrees of redshift, and a glow
   whose blur is ten times the intensity.
   */
  function DrawMote(m: Mote, view: View, dist: real): (l: MoteLook)
    requires IsDistance(dist, view.Center().Minus(m.pos))
    ensures 0.0 < l.intensity <= 1.0 && l.intensity == Intensity(dist)
    ensures l.alpha == m.life * l.intensity
    ensures l.hue == m.hue + ClassicRedshift(dist) * 60.0
    ensures l.shadowBlur == 10.0 * l.intensity
    ensures m.Valid() ==> 0.0 < l.alpha <= m.life
    ensures m.hue <= l.hue <= m.hue + 60.0
    ensures dist <= 500.0 ==> l.alpha == m.life
    ensures dist >= 500.0 ==> l.hue == m.hue
    ensures l.glow <==> dist < 300.0
    ensures 0.0 < l.shadowBlur <= 10.0
  {
    var i := Intensity(dist);
    Dimmed(m.life, i);
    MoteLook(i, m.life * i, m.hue + ClassicRedshift(dist) * 60.0, dist < 300.0, 10.0 * i)
  }

  /**
   The same particle seen from nearer the centre is drawn at least as opaque,
   at least as red-shifted and with at least as wide a glow.
   */
  lemma NearerMoteIsDrawnBrighter(m: Mote, near: View, d1: real, far: View, d2: real)
    requires m.Valid()
    requires IsDistance(d1, near.Center().Minus(m.pos)) && IsDistance(d2, far.Center().Minus(m.pos))
    requires d1 <= d2
    ensures DrawMote(m, near, d1).alpha >= DrawMote(m, far, d2).alpha
    ensures DrawMote(m, near, d1).hue >= DrawMote(m, far, d2).hue
    ensures DrawMote(m, near, d1).shadowBlur >= DrawMote(m, far, d2).shadowBlur
  {
    NearerIsBrighterAndRedder(d1, d2);
    ProductBelow(m.life, Intensity(d2), m.life, Intensity(d1));
  }

  // ----- Accretion disk -----

  const ClassicRingCount: nat := 15

  datatype ClassicRing = ClassicRing(radius: real, speed: real, angle: real, thickness: real, opacity: real)

  /** The three draws of one ring: its starting angle, thickness and opacity. */
  datatype RingDraws = RingDraws(uangle: Uniform, uthick: Uniform, uopacity: Uniform)

  /** Innermost ring radius, rs + 20, and the radius the rings approach, horizon + 150. */
  function MinRingRadius(cfg: ClassicConfig): real {
    cfg.schwarzschildRadius + 20.0
  }

  function MaxRingRadius(cfg: ClassicConfig): real {
    cfg.eventHorizon + 150.0
  }

  /** Ring `i`: at i/15 of the way from the inner to the outer radius, slower the further out. */
  function NewRing(cfg: ClassicConfig, i: nat, d: RingDraws): (g: ClassicRing)
    requires i < ClassicRingCount
    ensures g.radius == MinRingRadius(cfg) + (MaxRingRadius(cfg) - MinRingRadius(cfg)) * (i as real / 15.0)
    ensures g.speed * 15.0 == 0.3 - 0.015 * i as real && 0.005 < g.speed <= 0.02
    ensures 0.0 <= g.angle < TwoPi
    ensures 3.0 <= g.thickness < 5.0 && 0.3 <= g.opacity < 0.7
  {
    var lo, hi := MinRingRadius(cfg), MaxRingRadius(cfg);
    ClassicRing(lo + (hi - lo) * (i as real / 15.0), 0.02 - (i as real / 15.0) * 0.015,
                ScaledDraw(d.uangle, TwoPi), 3.0 + ScaledDraw(d.uthick, 2.0), 0.3 + ScaledDraw(d.uopacity, 0.4))
  }

  /** `new AccretionDisk()`: fifteen rings built from the current radius and horizon. */
  function NewClassicDisk(cfg: ClassicConfig, draws: nat -> RingDraws): (rings: seq<ClassicRing>)
    ensures |rings| == ClassicRingCount
    ensures forall i :: 0 <= i < |rings| ==> rings[i] == NewRing(cfg, i, draws(i))
  {
    seq(ClassicRingCount, i requires 0 <= i < ClassicRingCount => NewRing(cfg, i, draws(i)))
  }

  /**
   The rings start at rs + 20 and spread strictly outward exactly when the
   outer bound exceeds the inner, staying below the outer bound.
   */
  lemma RingsSpreadOutward(cfg: ClassicConfig, draws: nat -> RingDraws, i: nat, j: nat)
    requires i < j < ClassicRingCount
    ensures NewClassicDisk(cfg, draws)[0].radius == MinRingRadius(cfg)
    ensures NewClassicDisk(cfg, draws)[i].radius < NewClassicDisk(cfg, draws)[j].radius <==>
      MaxRingRadius(cfg) > MinRingRadius(cfg)
    ensures MaxRingRadius(cfg) > MinRingRadius(cfg) ==> NewClassicDisk(cfg, draws)[j].radius < MaxRingRadius(cfg)
  {
    var rings := NewClassicDisk(cfg, draws);
    var lo, hi := MinRingRadius(cfg), MaxRingRadius(cfg);
    Between(lo, hi, i as real / 15.0, j as real / 15.0, rings[i].radius, rings[j].radius);
  }

  /** Each ring of a new disk turns more slowly than the one inside it. */
  lemma RingsSlowOutward(cfg: ClassicConfig, draws: nat -> RingDraws, i: nat, j: nat)
    requires i < j < ClassicRingCount
    ensures NewClassicDisk(cfg, draws)[i].speed > NewClassicDisk(cfg, draws)[j].speed
  {
    var rings := NewClassicDisk(cfg, draws);
    assert rings[i].speed * 15.0 > rings[j].speed * 15.0;
  }

  /**
   Points `a` and `b` at fractions `x < y` of the way from `lo` to `hi`
   rise with the fraction exactly when `hi` exceeds `lo`, and then stay
   below `hi`.
   */
  lemma Between(lo: real, hi: real, x: real, y: real, a: real, b: real)
    requires 0.0 <= x < y < 1.0
    requires a == lo + (hi - lo) * x && b == lo + (hi - lo) * y
    ensures a < b <==> hi > lo
    ensures hi > lo ==> b < hi
  {
    var span := hi - lo;
    Spread(span, y, x);
    SignOfProduct(span, y - x);
    Spread(span, 1.0, y);
    SignOfProduct(span, 1.0 - y);
  }

  /** Any non-negative mass set by the slider leaves the outer ring bound above the inner one. */
  lemma MassSliderKeepsRingsApart(c: ClassicConfig, mass: real)
    requires mass >= 0.0
    ensures MaxRingRadius(ClassicSetMass(c, mass)) > MinRingRadius(ClassicSetMass(c, mass))
  {
  }

  /** One frame's step of a ring's angle. */
  function RingStep(speed: real, spin: real): real {
    speed * spin * 0.01
  }

  /**
   The angle update: add the step, and take one turn off once the sum
   exceeds a turn. An angle within one turn stays within one turn under a
   step of at most one turn, and it moves by the step up to a whole turn.
   */
  function Wrap(a: real, inc: real): (r: real)
    ensures r == a + inc || r == a + inc - TwoPi
    ensures r < a + inc <==> a + inc > TwoPi
    ensures 0.0 <= a <= TwoPi && 0.0 <= inc <= TwoPi ==> 0.0 <= r <= TwoPi
  {
    if a + inc > TwoPi then a + inc - TwoPi else a + inc
  }

  /** `ring.angle += speed * accretionSpeed * 0.01` with the wrap; nothing else about the ring changes. */
  function TurnRing(g: ClassicRing, spin: real): (r: ClassicRing)
    ensures r == g.(angle := Wrap(g.angle, RingStep(g.speed, spin)))
    ensures 0.0 <= g.angle <= TwoPi && 0.0 <= RingStep(g.speed, spin) <= TwoPi ==> 0.0 <= r.angle <= TwoPi
  {
    var a := g.angle + g.speed * spin * 0.01;
    g.(angle := if a > TwoPi then a - TwoPi else a)
  }

  /** `AccretionDisk.update()`: every ring turned. */
  function UpdateClassicDisk(rings: seq<ClassicRing>, spin: real): (r: seq<ClassicRing>)
    ensures |r| == |rings|
    ensures forall i :: 0 <= i < |rings| ==> r[i] == TurnRing(rings[i], spin)
  {
    seq(|rings|, i requires 0 <= i < |rings| => TurnRing(rings[i], spin))
  }

  /** An angle plus `k` whole turns. */
  function PlusTurns(a: real, k: nat): real {
    a + k as real * TwoPi
  }

  /** An angle after `n` wrapped steps. */
  function WrapN(a: real, inc: real, n: nat): real {
    if n == 0 then a else Wrap(WrapN(a, inc, n - 1), inc)
  }

  /** `n` wrapped steps of at most a turn keep an angle within one turn. */
  lemma {:induction false} WrapNStaysInOneTurn(a: real, inc: real, n: nat)
    requires 0.0 <= a <= TwoPi && 0.0 <= inc <= TwoPi
    ensures 0.0 <= WrapN(a, inc, n) <= TwoPi
  {
    if n > 0 {
      WrapNStaysInOneTurn(a, inc, n - 1);
    }
  }

  /** `n` wrapped steps differ from `n` plain steps by a whole number `k` of turns. */
  lemma {:induction false} WrapNLosesWholeTurns(a: real, inc: real, n: nat) returns (k: nat)
    ensures PlusTurns(WrapN(a, inc, n), k) == a + n as real * inc
  {
    if n == 0 {
      k := 0;
      assert WrapN(a, inc, 0) == a;
    } else {
      var k0 := WrapNLosesWholeTurns(a, inc, n - 1);
      var u0 := a + (n - 1) as real * inc;
      k := WrapKeepsTurns(WrapN(a, inc, n - 1), inc, k0, u0);
      Spread(inc, n as real, (n - 1) as real);
      assert u0 + inc == a + n as real * inc;
    }
  }

  /** One wrapped step from an angle `k0` turns short of `u` lands `k` turns short of `u + inc`. */
  lemma WrapKeepsTurns(w: real, inc: real, k0: nat, u: real) returns (k: nat)
    requires PlusTurns(w, k0) == u
    ensures PlusTurns(Wrap(w, inc), k) == u + inc
  {
    if w + inc > TwoPi {
      k := k0 + 1;
    } else {
      k := k0;
    }
  }

  /** A ring turned `n` times. */
  function TurnRingN(g: ClassicRing, spin: real, n: nat): ClassicRing {
    if n == 0 then g else TurnRing(TurnRingN(g, spin, n - 1), spin)
  }

  /** Turning a ring `n` times wraps its angle `n` times by the same step and changes nothing else. */
  lemma {:induction false} TurnRingNWraps(g: ClassicRing, spin: real, n: nat)
    ensures TurnRingN(g, spin, n) == g.(angle := WrapN(g.angle, RingStep(g.speed, spin), n))
  {
    if n > 0 {
      TurnRingNWraps(g, spin, n - 1);
      var h0 := g.(angle := WrapN(g.angle, RingStep(g.speed, spin), n - 1));
      assert TurnRingN(g, spin, n) == TurnRing(h0, spin);
      assert TurnRing(h0, spin) == h0.(angle := Wrap(h0.angle, RingStep(g.speed, spin)));
    }
  }

  /**
   A ring whose angle starts within one turn and whose step is between zero
   and one turn keeps its angle within one turn however many frames pass,
   and nothing else about it changes.
   */
  lemma TurnsStayInOneTurn(g: ClassicRing, spin: real, n: nat)
    requires 0.0 <= g.angle <= TwoPi && 0.0 <= RingStep(g.speed, spin) <= TwoPi
    ensures 0.0 <= TurnRingN(g, spin, n).angle <= TwoPi
    ensures TurnRingN(g, spin, n) == g.(angle := TurnRingN(g, spin, n).angle)
  {
    TurnRingNWraps(g, spin, n);
    WrapNStaysInOneTurn(g.angle, RingStep(g.speed, spin), n);
  }

  /** For any accretion speed from 0 to 100, every new ring starts within one turn and steps by at most one turn. */
  lemma NewRingStepsWithinOneTurn(cfg: ClassicConfig, i: nat, d: RingDraws, spin: real)
    requires i < ClassicRingCount && 0.0 <= spin <= 100.0
    ensures var g := NewRing(cfg, i, d); 0.0 <= g.angle <= TwoPi && 0.0 <= RingStep(g.speed, spin) <= TwoPi
  {
    var g := NewRing(cfg, i, d);
    ProductBelow(g.speed, spin, 0.02, 100.0);
  }

  /**
   The hue of the ring at index `i` of the disk, 280 - 80 * (1 - i / 15):
   from 200 at the inner ring toward 280 for the outermost of the 15.
   */
  function RingHue(i: nat): (h: real)
    ensures i < ClassicRingCount ==> 200.0 <= h < 280.0
    ensures h * 15.0 == 3000.0 + 80.0 * i as real
  {
    var temp := 1.0 - i as real / 15.0;
    280.0 - temp * 80.0
  }

  /**
   One ring's stroke: a circle of the ring's radius and thickness, coloured by
   a radial gradient from 10 pixels inside to 10 pixels outside the radius
   that peaks at the ring's opacity, then stroked again with a glow of blur 20
   at half that opacity. The hue comes from the ring's index in the disk.
   */
  datatype RingStroke = RingStroke(radius: real, lineWidth: real, gradientInner: real, gradientOuter: real,
                                   hue: real, peakAlpha: real, glowBlur: real, glowAlpha: real)

  function DrawClassicRing(g: ClassicRing, index: nat): (k: RingStroke)
    ensures k.radius == g.radius && k.lineWidth == g.thickness
    ensures k.gradientInner == g.radius - 10.0 && k.gradientOuter == g.radius + 10.0
    ensures k.hue * 15.0 == 3000.0 + 80.0 * index as real
    ensures index < ClassicRingCount ==> 200.0 <= k.hue < 280.0
    ensures k.peakAlpha == g.opacity && k.glowAlpha * 2.0 == g.opacity && k.glowBlur == 20.0
  {
    RingStroke(g.radius, g.thickness, g.radius - 10.0, g.radius + 10.0, RingHue(index), g.opacity, 20.0, g.opacity * 0.5)
  }

  /** The disk's draw call: every ring stroked in order, each coloured by its own index. */
  function DrawClassicDisk(rings: seq<ClassicRing>): (ks: seq<RingStroke>)
    ensures |ks| == |rings|
    ensures forall i :: 0 <= i < |rings| ==> ks[i] == DrawClassicRing(rings[i], i)
  {
    seq(|rings|, i requires 0 <= i < |rings| => DrawClassicRing(rings[i], i))
  }

  /** Within a drawn disk, a ring further out in the array is drawn with a strictly higher hue. */
  lemma OuterRingsDrawnWarmer(rings: seq<ClassicRing>, i: nat, j: nat)
    requires i < j < |rings|
    ensures DrawClassicDisk(rings)[i].hue < DrawClassicDisk(rings)[j].hue
  {
    var ks := DrawClassicDisk(rings);
    assert ks[i].hue * 15.0 < ks[j].hue * 15.0;
  }

  // ----- Stars -----

  const ClassicStarCount: nat := 200

  datatype ClassicStar = ClassicStar(x: real, y: real, size: real, brightness: real, twinkleSpeed: real)

  /** The five draws of the star constructor. */
  datatype ClassicStarDraws = ClassicStarDraws(ux: Uniform, uy: Uniform, usize: Uniform, ubright: Uniform, uspeed: Uniform)

  /** `new Star()`: on the canvas, size below 1.5, brightness in [0, 1), twinkle speed in [0.01, 0.03). */
  function NewClassicStar(view: View, d: ClassicStarDraws): (s: ClassicStar)
    ensures 0.0 <= s.x <= view.W() && 0.0 <= s.y <= view.H()
    ensures 0.0 <= s.size < 1.5 && 0.0 <= s.brightness < 1.0 && 0.01 <= s.twinkleSpeed < 0.03
  {
    ClassicStar(ScaledDraw(d.ux, view.W()), ScaledDraw(d.uy, view.H()), ScaledDraw(d.usize, 1.5),
                ScaledDraw(d.ubright, 1.0), ScaledDraw(d.uspeed, 0.02) + 0.01)
  }

  /** `Star.draw()`'s update: step the brightness, and reverse the step once the result leaves [0, 1]. */
  function Bounce(s: ClassicStar): (r: ClassicStar)
    ensures r.brightness == s.brightness + s.twinkleSpeed
    ensures r.twinkleSpeed == -s.twinkleSpeed <==> (r.brightness > 1.0 || r.brightness < 0.0) || s.twinkleSpeed == 0.0
    ensures r.twinkleSpeed == s.twinkleSpeed || r.twinkleSpeed == -s.twinkleSpeed
    ensures r == s.(brightness := r.brightness, twinkleSpeed := r.twinkleSpeed)
  {
    var b := s.brightness + s.twinkleSpeed;
    s.(brightness := b, twinkleSpeed := if b > 1.0 || b < 0.0 then -s.twinkleSpeed else s.twinkleSpeed)
  }

  /**
   The bounce's invariant for a step of magnitude `m` of at most one: the
   step keeps its magnitude, the brightness overshoots [0, 1] by at most one
   step, and when it is over (under) the step already points back.
   */
  predicate Bouncing(s: ClassicStar, m: real) {
    (s.twinkleSpeed == m || s.twinkleSpeed == -m) && 0.0 <= m <= 1.0 &&
    -m <= s.brightness <= 1.0 + m &&
    (s.brightness > 1.0 ==> s.twinkleSpeed < 0.0) &&
    (s.brightness < 0.0 ==> s.twinkleSpeed > 0.0)
  }

  /** A new star bounces with its own step, and every frame keeps it bouncing. */
  lemma BounceKeepsBrightnessNearRange(view: View, d: ClassicStarDraws, s: ClassicStar, m: real)
    ensures var n := NewClassicStar(view, d); Bouncing(n, n.twinkleSpeed)
    ensures Bouncing(s, m) ==> Bouncing(Bounce(s), m)
  {
  }

  /** The fill alpha, brightness * 0.8, of a bouncing star stays within 0.8 of a step of [0, 0.8]. */
  lemma StarAlphaNearRange(s: ClassicStar, m: real)
    requires Bouncing(s, m)
    ensures -0.8 * m <= s.brightness * 0.8 <= 0.8 + 0.8 * m
  {
  }

  // ----- Scene and handlers -----

  datatype ClassicState = ClassicState(cfg: ClassicConfig, view: View, motes: seq<Mote>, stars: seq<ClassicStar>,
                                       rings: seq<ClassicRing>)

  /** `initParticles()`: `particleCount` new particles. */
  function InitMotes(cfg: ClassicConfig, view: View, draws: nat -> SpawnDraws): (ms: seq<Mote>)
    ensures |ms| == cfg.particleCount
    ensures forall i :: 0 <= i < |ms| ==> ms[i] == SpawnMote(view, draws(i)) && ms[i].Valid()
  {
    Fresh(cfg.particleCount, i => SpawnMote(view, draws(i)))
  }

  /** `initStars()`: 200 new stars. */
  function InitClassicStars(view: View, draws: nat -> ClassicStarDraws): (ss: seq<ClassicStar>)
    ensures |ss| == ClassicStarCount
    ensures forall i :: 0 <= i < |ss| ==> ss[i] == NewClassicStar(view, draws(i)) && Bouncing(ss[i], ss[i].twinkleSpeed)
  {
    Fresh(ClassicStarCount, i => NewClassicStar(view, draws(i)))
  }

  /** The mass slider: the configuration as `ClassicSetMass`, and a new disk for the new radii. */
  function OnClassicMassInput(s: ClassicState, mass: real, draws: nat -> RingDraws): (r: ClassicState)
    ensures r.cfg == ClassicSetMass(s.cfg, mass)
    ensures r.rings == NewClassicDisk(r.cfg, draws)
    ensures r == s.(cfg := r.cfg, rings := r.rings)
  {
    var cfg := ClassicSetMass(s.cfg, mass);
    s.(cfg := cfg, rings := NewClassicDisk(cfg, draws))
  }

  /** The particle-count slider: the array is resized to exactly the new count and the count recorded. */
  method OnClassicParticleCountInput(s: ClassicState, newCount: nat, draws: nat -> SpawnDraws) returns (r: ClassicState)
    ensures r.cfg == s.cfg.(particleCount := newCount)
    ensures |r.motes| == newCount
    ensures |s.motes| < newCount ==> r.motes[..|s.motes|] == s.motes
    ensures forall i :: |s.motes| <= i < newCount ==> r.motes[i] == SpawnMote(s.view, draws(i - |s.motes|)) && r.motes[i].Valid()
    ensures (forall i :: 0 <= i < |s.motes| ==> s.motes[i].Valid()) ==> forall i :: 0 <= i < |r.motes| ==> r.motes[i].Valid()
    ensures |s.motes| >= newCount ==> r.motes == s.motes[..newCount]
    ensures r == s.(cfg := r.cfg, motes := r.motes)
  {
    var ms := ResizeByLength(s.motes, newCount, i => SpawnMote(s.view, draws(i)));
    r := s.(cfg := s.cfg.(particleCount := newCount), motes := ms);
  }

  /** The reset button: the default configuration, 2000 new particles and a new disk; the stars stay. */
  function OnReset(s: ClassicState, pdraws: nat -> SpawnDraws, rdraws: nat -> RingDraws): (r: ClassicState)
    ensures r.cfg == ClassicDefaults
    ensures |r.motes| == 2000 && forall i :: 0 <= i < |r.motes| ==> r.motes[i] == SpawnMote(s.view, pdraws(i))
    ensures r.rings == NewClassicDisk(ClassicDefaults, rdraws)
    ensures r.view == s.view && r.stars == s.stars
  {
    s.(cfg := ClassicDefaults, motes := InitMotes(ClassicDefaults, s.view, pdraws),
       rings := NewClassicDisk(ClassicDefaults, rdraws))
  }

  /** After a reset the disk is the one the mass slider builds for a mass of 150. */
  lemma ResetDiskMatchesMass150(s: ClassicState, pdraws: nat -> SpawnDraws, rdraws: nat -> RingDraws)
    ensures OnReset(s, pdraws, rdraws).rings == OnClassicMassInput(s.(cfg := ClassicDefaults), 150.0, rdraws).rings
  {
    DefaultsAgreeWithMassSlider();
  }

  /** The tick inputs fit every particle's true distance to the centre. */
  predicate ClassicFits(s: ClassicState, ticks: nat -> ClassicTickInput) {
    forall i :: 0 <= i < |s.motes| ==> IsDistance(ticks(i).dist, s.view.Center().Minus(s.motes[i].pos))
  }

  /** The state change of one `animate()` frame: stars bounce, the disk turns, and every particle ticks. */
  function ClassicFrame(s: ClassicState, ticks: nat -> ClassicTickInput): (r: ClassicState)
    requires ClassicFits(s, ticks)
    ensures r.cfg == s.cfg && r.view == s.view
    ensures |r.stars| == |s.stars| && forall i :: 0 <= i < |s.stars| ==> r.stars[i] == Bounce(s.stars[i])
    ensures r.rings == UpdateClassicDisk(s.rings, s.cfg.accretionSpeed)
    ensures |r.motes| == |s.motes|
    ensures forall i :: 0 <= i < |s.motes| ==> r.motes[i] == ClassicTick(s.motes[i], s.cfg, s.view, ticks(i))
    ensures (forall i :: 0 <= i < |s.motes| ==> s.motes[i].Valid()) ==> forall i :: 0 <= i < |r.motes| ==> r.motes[i].Valid()
  {
    var stars := seq(|s.stars|, i requires 0 <= i < |s.stars| => Bounce(s.stars[i]));
    var motes := seq(|s.motes|, i requires 0 <= i < |s.motes| && IsDistance(ticks(i).dist, s.view.Center().Minus(s.motes[i].pos)) =>
      ClassicTick(s.motes[i], s.cfg, s.view, ticks(i)));
    s.(stars := stars, rings := UpdateClassicDisk(s.rings, s.cfg.accretionSpeed), motes := motes)
  }
}

=== FILE: config.dfy ===
/**
 The process-wide configuration of the Canvas-2D and three.js renderers,
 the table of named black-hole presets, and the effects of the mass slider
 and of a preset switch on the configuration.
 */
module SimConfig {
  import opened Wrappers

  /** The renderer's `config` object (script-simple.js and script-webgl.js share these fields). */
  datatype Config = Config(
    currentPreset: string,
    blackHoleMass: real,
    particleCount: nat,
    gravityStrength: real,
    lensStrength: real,
    accretionSpeed: real,
    infiniteZoom: bool,
    glslLens: bool,
    eventHorizon: real,
    schwarzschildRadius: real,
    relativisticJets: bool,
    hawkingRadiation: bool,
    ergosphere: bool,
    frameDragging: bool
  )

  /** One entry of BLACK_HOLE_PRESETS, restricted to the fields a preset switch reads. */
  datatype Preset = Preset(
    name: string,
    displayMass: real,
    schwarzschildRadius: real,
    particleCount: nat,
    accretionSpeed: real
  )

  /** The preset table, keyed by the selector's option values. */
  const Presets: map<string, Preset> := map[
    "sagittarius" := Preset("Sagittarius A*", 200.0, 70.0, 800, 3.0),
    "m87" := Preset("M87*", 280.0, 120.0, 1500, 8.0),
    "cygnus" := Preset("Cygnus X-1", 120.0, 45.0, 400, 15.0),
    "custom" := Preset("Personalizado", 150.0, 80.0, 300, 5.0)
  ]

  /** `BLACK_HOLE_PRESETS[key]`, or nothing for a key outside the table. */
  function PresetNamed(key: string): (r: Option<Preset>)
    ensures r.Some? <==> key in Presets
    ensures r.Some? ==> r.value == Presets[key]
  {
    if key in Presets then Some(Presets[key]) else None
  }

  /** The derived radii agree with the mass as the mass slider sets them. */
  predicate RadiiFollowMass(c: Config) {
    c.schwarzschildRadius == 0.4 * c.blackHoleMass && c.eventHorizon == 1.5 * c.schwarzschildRadius
  }

  /** The event horizon is one and a half Schwarzschild radii, as both the slider and a preset set it. */
  predicate HorizonFollowsRadius(c: Config) {
    c.eventHorizon == 1.5 * c.schwarzschildRadius
  }

  /**
   The mass slider's handler: the parsed integer mass becomes the mass, the
   Schwarzschild radius is re-derived as 60 * (mass / 150), the event horizon
   as 1.5 of that, and the preset selection falls back to 'custom'.
   */
  function SetMass(c: Config, mass: int): (r: Config)
    ensures r.blackHoleMass == mass as real
    ensures RadiiFollowMass(r) && HorizonFollowsRadius(r)
    ensures r.currentPreset == "custom"
    ensures r == c.(blackHoleMass := r.blackHoleMass, schwarzschildRadius := r.schwarzschildRadius,
                    eventHorizon := r.eventHorizon, currentPreset := "custom")
  {
    var rs := 60.0 * (mass as real / 150.0);
    c.(blackHoleMass := mass as real, schwarzschildRadius := rs, eventHorizon := rs * 1.5,
       currentPreset := "custom")
  }

  /** Setting the same mass twice is the same as setting it once. */
  lemma SetMassIdempotent(c: Config, mass: int)
    ensures SetMass(SetMass(c, mass), mass) == SetMass(c, mass)
  {
  }

  /**
   The configuration half of a preset switch: the selected name, the preset's
   mass, radius, horizon (1.5 radii) and accretion speed, and its particle
   count. The particle array is rebuilt by the caller exactly when the count
   changes.
   */
  function WithPreset(c: Config, key: string, p: Preset): (r: Config)
    ensures r.currentPreset == key && r.blackHoleMass == p.displayMass
    ensures r.schwarzschildRadius == p.schwarzschildRadius && HorizonFollowsRadius(r)
    ensures r.accretionSpeed == p.accretionSpeed && r.particleCount == p.particleCount
    ensures r.gravityStrength == c.gravityStrength && r.lensStrength == c.lensStrength
    ensures r.infiniteZoom == c.infiniteZoom && r.glslLens == c.glslLens
    ensures r.relativisticJets == c.relativisticJets && r.hawkingRadiation == c.hawkingRadiation
    ensures r.ergosphere == c.ergosphere && r.frameDragging == c.frameDragging
  {
    c.(currentPreset := key, blackHoleMass := p.displayMass,
       schwarzschildRadius := p.schwarzschildRadius,
       eventHorizon := p.schwarzschildRadius * 1.5,
       accretionSpeed := p.accretionSpeed, particleCount := p.particleCount)
  }

  /** script-simple.js's initial `config`. */
  const SimpleDefaults: Config := Config("custom", 150.0, 50, 500.0, 50.0, 5.0, true, false,
                                         80.0, 60.0, false, false, false, false)

  /** script-webgl.js's initial `config`, restricted to the shared fields. */
  const WebglDefaults: Config := Config("custom", 150.0, 300, 500.0, 50.0, 5.0, true, true,
                                        80.0, 60.0, true, true, true, true)

  /**
   The initial configurations pair a radius of 60 with a horizon of 80, not the
   90 that the mass slider and every preset derive; the radius itself does
   follow the initial mass.
   */
  lemma DefaultsPairRadiusWithOwnHorizon()
    ensures SimpleDefaults.schwarzschildRadius == 0.4 * SimpleDefaults.blackHoleMass
    ensures !HorizonFollowsRadius(SimpleDefaults) && !HorizonFollowsRadius(WebglDefaults)
    ensures HorizonFollowsRadius(SetMass(SimpleDefaults, 150))
  {
  }
}

=== FILE: disk.dfy ===
/**
 The Canvas-2D accretion disk (`AccretionDisk` of script-simple.js): eight
 orbiting hotspots, and the numbers each of the 25 elliptical rings of the
 near and far lobes is drawn with.
 */
module Disk {
  import opened Geometry

  /** Rings per lobe. */
  const RingCount: nat := 25

  /** Hotspots created by the constructor. */
  const HotspotCount: nat := 8

  /** Vertical squash of every ring and hotspot ellipse. */
  const Flattening: real := 0.18

  datatype Hotspot = Hotspot(angle: real, speed: real, intensity: real)

  datatype AccretionDisk = AccretionDisk(hotspots: seq<Hotspot>)

  /** The three draws for one hotspot, in the constructor's order. */
  datatype HotspotDraws = HotspotDraws(uangle: Uniform, uspeed: Uniform, uintensity: Uniform)

  /** One hotspot: an angle in [0, 2 pi), a speed in [0.001, 0.003) and an intensity in [0, 1). */
  function NewHotspot(d: HotspotDraws): (h: Hotspot)
    ensures 0.0 <= h.angle < TwoPi
    ensures 0.001 <= h.speed < 0.003
    ensures 0.0 <= h.intensity < 1.0
  {
    Hotspot(d.uangle * TwoPi, 0.001 + d.uspeed * 0.002, d.uintensity)
  }

  /** `new AccretionDisk()`: eight hotspots, the i-th built from the i-th triple of draws. */
  function NewDisk(draws: nat -> HotspotDraws): (d: AccretionDisk)
    ensures |d.hotspots| == HotspotCount
    ensures forall i :: 0 <= i < |d.hotspots| ==> d.hotspots[i] == NewHotspot(draws(i))
  {
    AccretionDisk(seq(HotspotCount, i requires 0 <= i < HotspotCount => NewHotspot(draws(i))))
  }

  /** `AccretionDisk.update()`: each hotspot advances by its own speed times the accretion speed. */
  function UpdateDisk(d: AccretionDisk, acc: real): (r: AccretionDisk)
    ensures |r.hotspots| == |d.hotspots|
    ensures forall i :: 0 <= i < |d.hotspots| ==>
      r.hotspots[i].speed == d.hotspots[i].speed &&
      r.hotspots[i].intensity == d.hotspots[i].intensity &&
      r.hotspots[i].angle - d.hotspots[i].angle == d.hotspots[i].speed * acc
  {
    AccretionDisk(seq(|d.hotspots|, i requires 0 <= i < |d.hotspots| =>
      d.hotspots[i].(angle := d.hotspots[i].angle + d.hotspots[i].speed * acc)))
  }

  /** The disk after `k` frames at a constant accretion speed. */
  function UpdateDiskN(d: AccretionDisk, acc: real, k: nat): AccretionDisk {
    if k == 0 then d else UpdateDisk(UpdateDiskN(d, acc, k - 1), acc)
  }

  /**
   Hotspots turn uniformly: after `k` frames each has advanced by exactly
   `k * speed * acc`, with no wrap-around of the angle.
   */
  lemma {:induction false} HotspotsTurnUniformly(d: AccretionDisk, acc: real, k: nat)
    ensures |UpdateDiskN(d, acc, k).hotspots| == |d.hotspots|
    ensures forall i :: 0 <= i < |d.hotspots| ==>
      UpdateDiskN(d, acc, k).hotspots[i] ==
        d.hotspots[i].(angle := d.hotspots[i].angle + k as real * (d.hotspots[i].speed * acc))
  {
    if k > 0 {
      HotspotsTurnUniformly(d, acc, k - 1);
      var prev := UpdateDiskN(d, acc, k - 1);
      forall i | 0 <= i < |d.hotspots|
        ensures UpdateDiskN(d, acc, k).hotspots[i] ==
          d.hotspots[i].(angle := d.hotspots[i].angle + k as real * (d.hotspots[i].speed * acc))
      {
        var s := d.hotspots[i].speed * acc;
        assert (k - 1) as real * s + s == k as real * s;
      }
    }
  }

  /** Which half of the disk a ring belongs to: the near lobe is drawn with sign -1, the far lobe with +1. */
  datatype Lobe = Near | Far {
    function Sign(): real {
      if Near? then -1.0 else 1.0
    }
  }

  /** The geometry `drawEllipticalRing` computes for one ring. */
  datatype RingShape = RingShape(radius: real, nextRadius: real, temperature: real,
                                 verticalRadius: real, verticalOffset: real)

  /** The ring's inner edge: linear interpolation from 1.5 rs at ring 0 to 4 rs at ring 25. */
  function RingRadius(rs: real, ring: int): real {
    rs * 1.5 + (rs * 4.0 - rs * 1.5) * (ring as real / RingCount as real)
  }

  /**
   Geometry of ring `ring` of `lobe`: inner and outer radii on the 1.5 rs to
   4 rs scale, temperature 1 - ring/25, the 0.18 flattening, and the lobe's
   vertical shift of 0.3 rs.
   */
  function Ring(rs: real, ring: nat, lobe: Lobe): (s: RingShape)
    requires ring < RingCount
    ensures s.radius == RingRadius(rs, ring) && s.nextRadius == RingRadius(rs, ring + 1)
    ensures 0.0 < s.temperature <= 1.0 && s.temperature == 1.0 - ring as real / 25.0
    ensures rs > 0.0 ==> rs * 1.5 <= s.radius < s.nextRadius <= rs * 4.0
    ensures s.verticalRadius == s.radius * Flattening
    ensures s.verticalOffset == lobe.Sign() * rs * 0.3
  {
    var t := ring as real / RingCount as real;
    RingRadiusRises(rs, ring, ring + 1);
    RingRadiusRises(rs, 0, ring);
    RingRadiusRises(rs, ring + 1, RingCount);
    var radius := RingRadius(rs, ring);
    RingShape(radius, RingRadius(rs, ring + 1), 1.0 - t, radius * Flattening, lobe.Sign() * rs * 0.3)
  }

  /** For a positive radius, ring edges move strictly outward with the ring index. */
  lemma RingRadiusRises(rs: real, i: int, j: int)
    requires i <= j
    ensures rs > 0.0 ==> RingRadius(rs, i) <= RingRadius(rs, j)
    ensures rs > 0.0 && i < j ==> RingRadius(rs, i) < RingRadius(rs, j)
  {
    var w := rs * 2.5;
    assert RingRadius(rs, j) - RingRadius(rs, i) == w * ((j - i) as real / 25.0);
  }

  /** An RGB colour with an opacity. */
  datatype Rgba = Rgba(r: real, g: real, b: real, a: real)

  /**
   The ring's colour by temperature tier: white-yellow above 0.7, orange
   above 0.4, deep red below; the far lobe is drawn at a lower opacity.
   */
  function RingColor(temperature: real, lobe: Lobe): (c: Rgba)
    requires 0.0 <= temperature <= 1.0
    ensures 0.0 <= c.a <= 1.0
    ensures 0.0 <= c.r <= 255.0 && 0.0 <= c.g <= 255.0 && 0.0 <= c.b <= 255.0
  {
    var t := temperature;
    var far := lobe.Sign() > 0.0;
    if t > 0.7 then
      Rgba(255.0, 200.0 + t * 55.0, 100.0 + t * 50.0, (0.7 + t * 0.3) * (if far then 0.6 else 1.0))
    else if t > 0.4 then
      Rgba(255.0, 140.0 + t * 60.0, 30.0 + t * 50.0, (0.6 + t * 0.3) * (if far then 0.5 else 0.9))
    else
      Rgba(200.0 + t * 55.0, 50.0 + t * 50.0, 10.0 + t * 20.0, (0.4 + t * 0.3) * (if far then 0.4 else 0.7))
  }

  /** At every temperature the far lobe is strictly fainter than the near lobe, with the same colour. */
  lemma FarLobeIsFainter(t: real)
    requires 0.0 <= t <= 1.0
    ensures RingColor(t, Far).a < RingColor(t, Near).a
    ensures RingColor(t, Far).r == RingColor(t, Near).r
    ensures RingColor(t, Far).g == RingColor(t, Near).g && RingColor(t, Far).b == RingColor(t, Near).b
  {
  }

  /**
   Hotter rings are more opaque and greener, across the tier boundaries too:
   the table is strictly increasing in temperature in each lobe.
   */
  lemma HotterIsBrighter(t1: real, t2: real, lobe: Lobe)
    requires 0.0 <= t1 < t2 <= 1.0
    ensures RingColor(t1, lobe).a < RingColor(t2, lobe).a
    ensures RingColor(t1, lobe).g < RingColor(t2, lobe).g
  {
  }

  /** A ring gets its bright border exactly when its temperature exceeds 0.5: rings 0 to 12. */
  predicate HasBorder(s: RingShape) {
    s.temperature > 0.5
  }

  lemma BorderOnInnerThirteen(rs: real, ring: nat, lobe: Lobe)
    requires ring < RingCount
    ensures HasBorder(Ring(rs, ring, lobe)) <==> ring <= 12
  {
  }

  /** One hotspot blob as drawn on a ring: its angle, the radius it orbits at, and its size. */
  datatype Blob = Blob(angle: real, orbit: real, size: real)

  /**
   The blob for hotspot `h` on ring `ring`: its angle shifted by 0.1 per ring
   and by the clock, on the ring's mid-line, sized by intensity and
   temperature.
   */
  function BlobOf(h: Hotspot, ring: nat, s: RingShape, time: real, acc: real): (b: Blob)
    requires 0.0 <= h.intensity <= 1.0 && 0.0 <= s.temperature
    ensures s.radius <= s.nextRadius ==> s.radius <= b.orbit <= s.nextRadius
    ensures 0.0 <= b.size <= 25.0 * s.temperature
  {
    assert h.intensity * 15.0 <= 15.0;
    assert (10.0 + h.intensity * 15.0) * s.temperature <= 25.0 * s.temperature;
    Blob(h.angle + ring as real * 0.1 + time * acc * 0.1, (s.radius + s.nextRadius) / 2.0,
         (10.0 + h.intensity * 15.0) * s.temperature)
  }

  /** Everything one `drawEllipticalRing` call draws. */
  datatype RingDraw = RingDraw(ring: nat, lobe: Lobe, shape: RingShape, color: Rgba, border: bool, blobs: seq<Blob>)

  predicate ValidHotspots(d: AccretionDisk) {
    forall i :: 0 <= i < |d.hotspots| ==> 0.0 <= d.hotspots[i].intensity <= 1.0
  }

  /** One ring of one lobe, with one blob per hotspot on even rings and none on odd rings. */
  function DrawRing(d: AccretionDisk, rs: real, ring: nat, lobe: Lobe, time: real, acc: real): (r: RingDraw)
    requires ring < RingCount && ValidHotspots(d)
    ensures r.ring == ring && r.lobe == lobe && r.shape == Ring(rs, ring, lobe)
    ensures r.border <==> ring <= 12
    ensures |r.blobs| == if ring % 2 == 0 then |d.hotspots| else 0
    ensures forall i :: 0 <= i < |r.blobs| ==> r.blobs[i] == BlobOf(d.hotspots[i], ring, r.shape, time, acc)
  {
    var s := Ring(rs, ring, lobe);
    BorderOnInnerThirteen(rs, ring, lobe);
    var blobs := if ring % 2 == 0 then
      seq(|d.hotspots|, i requires 0 <= i < |d.hotspots| => BlobOf(d.hotspots[i], ring, s, time, acc))
    else [];
    RingDraw(ring, lobe, s, RingColor(s.temperature, lobe), HasBorder(s), blobs)
  }

  /** The ring drawn at position `i` of a frame: the near lobe's rings, then the far lobe's. */
  function LobeRing(i: nat): (ring: nat)
    ensures i < 2 * RingCount ==> ring < RingCount
  {
    if i < RingCount then i else i - RingCount
  }

  /**
   `AccretionDisk.draw()`: rings 0 to 24 of the near lobe, then rings 0 to 24
   of the far lobe, all at the same clock reading.
   */
  function DrawDisk(d: AccretionDisk, rs: real, time: real, acc: real): (r: seq<RingDraw>)
    requires ValidHotspots(d)
    ensures |r| == 2 * RingCount
    ensures forall i :: 0 <= i < |r| ==>
      r[i] == DrawRing(d, rs, LobeRing(i), if i < RingCount then Near else Far, time, acc)
  {
    seq(2 * RingCount, i requires 0 <= i < 2 * RingCount =>
      DrawRing(d, rs, LobeRing(i), if i < RingCount then Near else Far, time, acc))
  }

  /** Total number of blobs in a sequence of ring draws. */
  function BlobTotal(rs: seq<RingDraw>): nat {
    if rs == [] then 0 else |rs[0].blobs| + BlobTotal(rs[1..])
  }

  /** The blob count of a concatenation is the sum of the counts. */
  lemma {:induction false} BlobTotalAppend(a: seq<RingDraw>, b: seq<RingDraw>)
    ensures BlobTotal(a + b) == BlobTotal(a) + BlobTotal(b)
  {
    if a == [] {
      assert a + b == b;
    } else {
      assert (a + b)[1..] == a[1..] + b;
      BlobTotalAppend(a[1..], b);
    }
  }

  /** 1 when position `i` of a frame is an even ring of its lobe, else 0. */
  function EvenSlot(i: nat): nat {
    if LobeRing(i) % 2 == 0 then 1 else 0
  }

  /**
   How many of the positions 0 .. n-1 of a frame fall on an even ring of
   their lobe: rings 0, 2, ..., 24 give 13 in each lobe.
   */
  function EvenPositions(n: nat): nat {
    if n <= RingCount then (n + 1) / 2 else (RingCount + 1) / 2 + (n - RingCount + 1) / 2
  }

  /** Each position adds its own slot to the count of the positions before it. */
  lemma EvenPositionsStep(n: nat)
    requires 0 < n <= 2 * RingCount
    ensures EvenPositions(n) == EvenPositions(n - 1) + EvenSlot(n - 1)
  {
    var k := n - 1;
    var j := LobeRing(k);
    if k < RingCount {
      assert j == k;
    } else {
      assert j == k - RingCount;
    }
    if j % 2 == 0 {
      assert EvenSlot(k) == 1;
    } else {
      assert EvenSlot(k) == 0;
    }
  }

  /**
   A frame draws each hotspot on the 13 even rings of each lobe: 26 blobs per
   hotspot, 208 for the constructor's eight.
   */
  lemma BlobsPerFrame(d: AccretionDisk, rs: real, time: real, acc: real)
    requires ValidHotspots(d)
    ensures BlobTotal(DrawDisk(d, rs, time, acc)) == 26 * |d.hotspots|
  {
    var r := DrawDisk(d, rs, time, acc);
    var h := |d.hotspots|;
    forall i | 0 <= i < |r|
      ensures |r[i].blobs| == h * EvenSlot(i)
    {
      assert |r[i].blobs| == if LobeRing(i) % 2 == 0 then h else 0;
      if EvenSlot(i) == 1 {
        assert h * EvenSlot(i) == h;
      } else {
        assert h * EvenSlot(i) == 0;
      }
    }
    BlobsInPrefix(r, h, |r|);
    assert EvenPositions(|r|) == 26;
    assert r[..|r|] == r;
  }

  /** Blobs in the first `n` ring draws: `h` for every even slot among them. */
  lemma {:induction false} BlobsInPrefix(r: seq<RingDraw>, h: nat, n: nat)
    requires n <= |r| <= 2 * RingCount
    requires forall i :: 0 <= i < |r| ==> |r[i].blobs| == h * EvenSlot(i)
    ensures BlobTotal(r[..n]) == h * EvenPositions(n)
  {
    if n > 0 {
      BlobsInPrefix(r, h, n - 1);
      EvenPositionsStep(n);
      var front, last := r[..n - 1], r[n - 1];
      assert r[..n] == front + [last];
      BlobTotalAppend(front, [last]);
      assert [last][1..] == [];
      assert |last.blobs| == h * EvenSlot(n - 1);
      MulAdd(h, EvenPositions(n - 1), EvenSlot(n - 1));
    } else {
      assert r[..0] == [];
    }
  }

  /** Multiplication distributes over a sum. */
  lemma MulAdd(h: nat, a: nat, b: nat)
    ensures h * (a + b) == h * a + h * b
  {
  }
}

=== FILE: emitters.dfy ===
/**
 The two optional emitters of the Canvas-2D renderer: a relativistic jet
 (`RelativisticJet`, one above and one below the hole) and the Hawking
 radiation ring (`HawkingRadiation`). Each is a capped pool that may admit one
 member per tick and then advances and culls all of them.
 */
module Emitters {
  import opened Geometry
  import opened Pools

  /** Pool cap, spawn chance and life lost per tick of a jet. */
  const JetCap: nat := 50
  const JetChance: real := 0.1
  const JetFade: real := 0.01

  /** How far beyond the top or bottom edge a jet drop may travel before it is culled. */
  const JetMargin: real := 200.0

  /** One jet drop: it moves vertically only. */
  datatype JetDrop = JetDrop(x: real, y: real, vy: real, life: real, hue: real)

  datatype Jet = Jet(isTop: bool, drops: seq<JetDrop>)

  /** The draws of one jet tick: the spawn roll, then the speed and hue of the drop it may launch. */
  datatype JetDraws = JetDraws(roll: Uniform, uspeed: Uniform, uhue: Uniform)

  /** A freshly launched drop: at the centre, speed 5 to 10 away from the disk, full life, hue 180 to 220. */
  function Launch(isTop: bool, view: View, uspeed: Uniform, uhue: Uniform): JetDrop {
    var c := view.Center();
    JetDrop(c.x, c.y, if isTop then -5.0 - uspeed * 5.0 else 5.0 + uspeed * 5.0, 1.0, 180.0 + uhue * 40.0)
  }

  /** One tick of a drop's motion and fading. */
  function Drift(d: JetDrop): JetDrop {
    d.(y := d.y + d.vy, life := d.life - JetFade)
  }

  /** The filter's test: still alive and within 200 pixels of the canvas vertically. */
  predicate Visible(view: View, d: JetDrop) {
    d.life > 0.0 && -JetMargin < d.y < view.H() + JetMargin
  }

  /** The filter's test as a value. */
  function KeepDrop(view: View): JetDrop -> bool {
    d => Visible(view, d)
  }

  /** The jet's drops after the spawn test of one tick. */
  function LaunchInto(j: Jet, view: View, dr: JetDraws): seq<JetDrop> {
    Admit(j.drops, JetCap, dr.roll, JetChance, Launch(j.isTop, view, dr.uspeed, dr.uhue))
  }

  /** The drop moves away from the disk on its own side at 5 to 10 pixels per tick, with life in (0, 1] and a hue in [180, 220). */
  predicate WellFormedDrop(isTop: bool, d: JetDrop) {
    (if isTop then -10.0 < d.vy <= -5.0 else 5.0 <= d.vy < 10.0) &&
    0.0 < d.life <= 1.0 && 180.0 <= d.hue < 220.0
  }

  predicate WellFormedJet(j: Jet) {
    |j.drops| <= JetCap && forall i :: 0 <= i < |j.drops| ==> WellFormedDrop(j.isTop, j.drops[i])
  }

  /** A launched drop is well formed on its own side. */
  lemma LaunchWellFormed(isTop: bool, view: View, uspeed: Uniform, uhue: Uniform)
    ensures WellFormedDrop(isTop, Launch(isTop, view, uspeed, uhue))
  {
    assert 0.0 <= uspeed * 5.0 < 5.0;
    assert 0.0 <= uhue * 40.0 < 40.0;
  }

  /**
   `RelativisticJet.update()`: launch a drop when fewer than 50 are in
   flight and the roll is under 0.1, then advance every drop and keep the
   visible ones. The jet keeps its side and its cap, grows by at most one
   drop, keeps only visible drops, and stays well formed.
   */
  function UpdateJet(j: Jet, view: View, dr: JetDraws): (r: Jet)
    ensures r.isTop == j.isTop
    ensures |r.drops| <= |j.drops| + 1
    ensures |j.drops| <= JetCap ==> |r.drops| <= JetCap
    ensures forall d :: d in r.drops ==> Visible(view, d)
    ensures forall d :: d in r.drops ==>
      (exists e :: e in j.drops && d == Drift(e)) ||
      (JetLaunches(j, dr) && d == Drift(Launch(j.isTop, view, dr.uspeed, dr.uhue)))
    ensures forall e :: e in j.drops && Visible(view, Drift(e)) ==> Drift(e) in r.drops
    ensures JetLaunches(j, dr) && Visible(view, Drift(Launch(j.isTop, view, dr.uspeed, dr.uhue))) ==>
      |r.drops| > 0 && r.drops[|r.drops| - 1] == Drift(Launch(j.isTop, view, dr.uspeed, dr.uhue))
    ensures WellFormedJet(j) ==> WellFormedJet(r)
  {
    JetStaysWellFormed(j, view, dr);
    AdmitThenSurvive(j.drops, JetCap, dr.roll, JetChance, Launch(j.isTop, view, dr.uspeed, dr.uhue), Drift, KeepDrop(view));
    Jet(j.isTop, Survivors(LaunchInto(j, view, dr), Drift, KeepDrop(view)))
  }

  /** The spawn test of a jet tick passes: fewer than 50 drops in flight and a roll under 0.1. */
  predicate JetLaunches(j: Jet, dr: JetDraws) {
    |j.drops| < JetCap && dr.roll < JetChance
  }

  /** The well-formedness half of `UpdateJet`: launched and drifted drops stay well formed. */
  lemma JetStaysWellFormed(j: Jet, view: View, dr: JetDraws)
    ensures WellFormedJet(j) ==>
      forall i :: 0 <= i < |Survivors(LaunchInto(j, view, dr), Drift, KeepDrop(view))| ==>
        WellFormedDrop(j.isTop, Survivors(LaunchInto(j, view, dr), Drift, KeepDrop(view))[i])
  {
    if WellFormedJet(j) {
      LaunchWellFormed(j.isTop, view, dr.uspeed, dr.uhue);
      var admitted := LaunchInto(j, view, dr);
      assert forall i :: 0 <= i < |admitted| ==> WellFormedDrop(j.isTop, admitted[i]);
      SurvivorsKeepInvariant(admitted, Drift, KeepDrop(view), d => WellFormedDrop(j.isTop, d));
    }
  }

  /** A drop after `k` ticks of drift. */
  function DriftN(d: JetDrop, k: nat): JetDrop {
    if k == 0 then d else Drift(DriftN(d, k - 1))
  }

  /** After `k` ticks a drop has moved `k` steps of its speed and lost `k` hundredths of life. */
  lemma {:induction false} DriftNMoves(d: JetDrop, k: nat)
    ensures DriftN(d, k) == d.(y := d.y + k as real * d.vy, life := d.life - k as real * JetFade)
  {
    if k > 0 {
      DriftNMoves(d, k - 1);
    }
  }

  /**
   A launched drop is culled by its hundredth tick at the latest, and while it
   lives it is strictly on its own side of the centre.
   */
  lemma JetDropLifetime(isTop: bool, view: View, uspeed: Uniform, uhue: Uniform, k: nat)
    requires k >= 1
    ensures var d := DriftN(Launch(isTop, view, uspeed, uhue), k);
      (Visible(view, d) ==> k < 100) &&
      (if isTop then d.y < view.Center().y else d.y > view.Center().y)
  {
    var l := Launch(isTop, view, uspeed, uhue);
    LaunchWellFormed(isTop, view, uspeed, uhue);
    DriftNMoves(l, k);
    if isTop {
      assert k as real * l.vy <= k as real * -5.0;
    } else {
      assert k as real * l.vy >= k as real * 5.0;
    }
  }

  /** Pool cap, spawn chance and life lost per tick of the Hawking radiation. */
  const SparkCap: nat := 30
  const SparkChance: real := 0.05
  const SparkFade: real := 0.02

  /** One emitted quantum. */
  datatype Spark = Spark(pos: Vec, vel: Vec, life: real, hue: real)

  /** The draws of one radiation tick: the spawn roll, the emission angle as (cos, sin), and the hue. */
  datatype HawkingDraws = HawkingDraws(roll: Uniform, dir: Dir, uhue: Uniform)

  /** A spark emitted on the Schwarzschild circle, moving straight outward at 2 pixels per tick. */
  function Emit(view: View, rs: real, dir: Dir, uhue: Uniform): Spark {
    var c := view.Center();
    Spark(Vec(c.x + dir.x * rs, c.y + dir.y * rs), Vec(dir.x * 2.0, dir.y * 2.0), 1.0, uhue * 360.0)
  }

  function Fly(s: Spark): Spark {
    s.(pos := s.pos.Plus(s.vel), life := s.life - SparkFade)
  }

  predicate Alive(s: Spark) {
    s.life > 0.0
  }

  /** Speed exactly 2, life in (0, 1], hue in [0, 360). */
  predicate WellFormedSpark(s: Spark) {
    s.vel.NormSq() == 4.0 && 0.0 < s.life <= 1.0 && 0.0 <= s.hue < 360.0
  }

  /**
   `HawkingRadiation.update()`: emit when fewer than 30 sparks are out and
   the roll is under 0.05, then move and fade every spark and keep the live
   ones. The pool keeps its cap, grows by at most one, and stays well formed.
   */
  function UpdateHawking(sparks: seq<Spark>, view: View, rs: real, dr: HawkingDraws): (r: seq<Spark>)
    ensures |r| <= |sparks| + 1
    ensures |sparks| <= SparkCap ==> |r| <= SparkCap
    ensures forall s :: s in r ==> Alive(s)
    ensures forall s :: s in r ==>
      (exists e :: e in sparks && s == Fly(e)) ||
      (SparkEmitted(sparks, dr) && s == Fly(Emit(view, rs, dr.dir, dr.uhue)))
    ensures forall e :: e in sparks && Alive(Fly(e)) ==> Fly(e) in r
    ensures SparkEmitted(sparks, dr) && Alive(Fly(Emit(view, rs, dr.dir, dr.uhue))) ==>
      |r| > 0 && r[|r| - 1] == Fly(Emit(view, rs, dr.dir, dr.uhue))
    ensures WellFormedPool(sparks) ==> WellFormedPool(r)
  {
    HawkingStaysWellFormed(sparks, view, rs, dr);
    AdmitThenSurvive(sparks, SparkCap, dr.roll, SparkChance, Emit(view, rs, dr.dir, dr.uhue), Fly, Alive);
    Survivors(EmitInto(sparks, view, rs, dr), Fly, Alive)
  }

  /** The spawn test of a radiation tick passes: fewer than 30 sparks out and a roll under 0.05. */
  predicate SparkEmitted(sparks: seq<Spark>, dr: HawkingDraws) {
    |sparks| < SparkCap && dr.roll < SparkChance
  }

  /** A radiation pool within its cap of 30, every spark well formed. */
  predicate WellFormedPool(sparks: seq<Spark>) {
    |sparks| <= SparkCap && forall i :: 0 <= i < |sparks| ==> WellFormedSpark(sparks[i])
  }

  /** The pool after the spawn test of one radiation tick. */
  function EmitInto(sparks: seq<Spark>, view: View, rs: real, dr: HawkingDraws): seq<Spark> {
    Admit(sparks, SparkCap, dr.roll, SparkChance, Emit(view, rs, dr.dir, dr.uhue))
  }

  /** An emitted spark is well formed: unit direction times 2 has squared length 4. */
  lemma EmitWellFormed(view: View, rs: real, dir: Dir, uhue: Uniform)
    ensures WellFormedSpark(Emit(view, rs, dir, uhue))
  {
    var e := Emit(view, rs, dir, uhue);
    calc {
      e.vel.NormSq();
      (dir.x * 2.0) * (dir.x * 2.0) + (dir.y * 2.0) * (dir.y * 2.0);
      4.0 * (dir.x * dir.x + dir.y * dir.y);
    }
    assert 0.0 <= uhue * 360.0 < 360.0;
  }

  /** The well-formedness half of `UpdateHawking`. */
  lemma HawkingStaysWellFormed(sparks: seq<Spark>, view: View, rs: real, dr: HawkingDraws)
    ensures (forall i :: 0 <= i < |sparks| ==> WellFormedSpark(sparks[i])) ==>
      forall i :: 0 <= i < |Survivors(EmitInto(sparks, view, rs, dr), Fly, Alive)| ==>
        WellFormedSpark(Survivors(EmitInto(sparks, view, rs, dr), Fly, Alive)[i])
  {
    if forall i :: 0 <= i < |sparks| ==> WellFormedSpark(sparks[i]) {
      EmitWellFormed(view, rs, dr.dir, dr.uhue);
      var admitted := EmitInto(sparks, view, rs, dr);
      assert forall i :: 0 <= i < |admitted| ==> WellFormedSpark(admitted[i]);
      SurvivorsKeepInvariant(admitted, Fly, Alive, WellFormedSpark);
    }
  }

  /**
   A spark sits on the ray it was emitted along: its offset from the centre
   is its velocity times rs / 2 plus one per tick flown, where the ticks flown
   are read back from its life, 50 * (1 - life).
   */
  predicate OnEmissionRay(s: Spark, c: Vec, rs: real) {
    s.pos.Minus(c) == s.vel.Times(rs / 2.0 + 50.0 * (1.0 - s.life))
  }

  /** An emitted spark starts on its ray. */
  lemma SparksStartOnRay(view: View, rs: real, dir: Dir, uhue: Uniform)
    ensures OnEmissionRay(Emit(view, rs, dir, uhue), view.Center(), rs)
  {
    var e := Emit(view, rs, dir, uhue);
    assert e.pos.Minus(view.Center()) == Vec(dir.x * rs, dir.y * rs);
    assert (rs / 2.0) * (dir.x * 2.0) == dir.x * rs;
    assert (rs / 2.0) * (dir.y * 2.0) == dir.y * rs;
  }

  /** Each tick of flight keeps a spark on its ray. */
  lemma SparksStayOnRay(c: Vec, rs: real, s: Spark)
    requires OnEmissionRay(s, c, rs)
    ensures OnEmissionRay(Fly(s), c, rs)
  {
    var k := rs / 2.0 + 50.0 * (1.0 - s.life);
    assert rs / 2.0 + 50.0 * (1.0 - (s.life - SparkFade)) == k + 1.0;
    assert (k + 1.0) * s.vel.x == k * s.vel.x + s.vel.x;
    assert (k + 1.0) * s.vel.y == k * s.vel.y + s.vel.y;
  }
}

=== FILE: field.dfy ===
/**
 The particle array and the handlers that size it: the initial population
 (`initScene` / `initParticles`) and the particle-count slider, which appends
 new particles or keeps a prefix. The array is generic in the particle type
 so that the trail-carrying particle and the trail-less one of script.js
 share it; `make(i)` builds the i-th new particle from its own draws.
 */
module Field {

  /** `n` new particles, the i-th being `make(i)`. */
  function Fresh<T>(n: nat, make: nat -> T): (r: seq<T>)
    ensures |r| == n
    ensures forall i :: 0 <= i < n ==> r[i] == make(i)
  {
    seq(n, i requires 0 <= i < n => make(i))
  }

  function Min(a: int, b: int): int {
    if a <= b then a else b
  }

  /** `particles = []; for (i = 0; i < n; i++) particles.push(new Particle())`. */
  method Populate<T>(n: nat, make: nat -> T) returns (r: seq<T>)
    ensures r == Fresh(n, make)
  {
    r := [];
    var i := 0;
    while i < n
      invariant 0 <= i <= n
      invariant |r| == i
      invariant forall k :: 0 <= k < i ==> r[k] == make(k)
    {
      r := r + [make(i)];
      i := i + 1;
    }
  }

  /**
   The particle-count handler of script-simple.js and script-webgl.js: when
   the new count exceeds the configured count, append the difference;
   otherwise keep the first `newCount` particles (all of them if there are
   fewer). The configured count, not the array length, decides.
   */
  method ResizeByCount<T>(ps: seq<T>, count: nat, newCount: nat, make: nat -> T) returns (r: seq<T>)
    ensures newCount > count ==> r == ps + Fresh(newCount - count, make)
    ensures newCount <= count ==> r == ps[..Min(newCount, |ps|)]
    ensures |ps| == count ==> |r| == newCount
    ensures r[..Min(|ps|, |r|)] == ps[..Min(|ps|, |r|)]
  {
    if newCount > count {
      r := ps;
      var i := count;
      while i < newCount
        invariant count <= i <= newCount
        invariant |r| == |ps| + (i - count)
        invariant r[..|ps|] == ps
        invariant forall k :: |ps| <= k < |r| ==> r[k] == make(k - |ps|)
      {
        r := r + [make(i - count)];
        i := i + 1;
      }
      assert r == ps + Fresh(newCount - count, make);
    } else {
      r := ps[..Min(newCount, |ps|)];
    }
  }

  /**
   The particle-count handler of script.js: append until the array holds
   `newCount` particles, or keep its first `newCount`. The array length
   decides, so the result always has exactly `newCount` particles.
   */
  method ResizeByLength<T>(ps: seq<T>, newCount: nat, make: nat -> T) returns (r: seq<T>)
    ensures |r| == newCount
    ensures |ps| < newCount ==> r == ps + Fresh(newCount - |ps|, make)
    ensures |ps| >= newCount ==> r == ps[..newCount]
  {
    if |ps| < newCount {
      r := ps;
      var i := |ps|;
      while i < newCount
        invariant |ps| <= i <= newCount
        invariant |r| == i
        invariant r[..|ps|] == ps
        invariant forall k :: |ps| <= k < i ==> r[k] == make(k - |ps|)
      {
        r := r + [make(i - |ps|)];
        i := i + 1;
      }
      assert r == ps + Fresh(newCount - |ps|, make);
    } else {
      r := ps[..newCount];
    }
  }
}

=== FILE: geometry.dfy ===
/**
 Plane geometry, the canvas size, and the numeric oracles the renderers take
 from the browser. `Math.random()` becomes a `Uniform` draw in [0, 1),
 `(Math.cos a, Math.sin a)` becomes a unit vector `Dir`, `Math.sin` alone
 becomes a `Sine` in [-1, 1], and `Math.sqrt(distSq)` becomes a `dist`
 accompanied by `IsDistance(dist, offset)`. All arithmetic is exact `real`.
 */
module Geometry {

  /** A point or a displacement in canvas pixels. */
  datatype Vec = Vec(x: real, y: real) {

    function Plus(o: Vec): Vec {
      Vec(x + o.x, y + o.y)
    }

    function Minus(o: Vec): Vec {
      Vec(x - o.x, y - o.y)
    }

    function Times(k: real): Vec {
      Vec(k * x, k * y)
    }

    function Dot(o: Vec): real {
      x * o.x + y * o.y
    }

    function NormSq(): real {
      x * x + y * y
    }
  }

  /** A unit vector (cos a, sin a), standing for a pair of trigonometric calls on one angle. */
  type Dir = d: Vec | d.x * d.x + d.y * d.y == 1.0 witness Vec(1.0, 0.0)

  /** One draw of Math.random(). */
  type Uniform = u: real | 0.0 <= u < 1.0

  /** One value of Math.sin. */
  type Sine = s: real | -1.0 <= s <= 1.0

  /** Math.PI * 2 as the engine prints it. */
  const TwoPi: real := 6.283185307179586

  /** `dist` is the Euclidean length of `v`: the value Math.sqrt returns for v's squared length. */
  predicate IsDistance(dist: real, v: Vec) {
    dist >= 0.0 && dist * dist == v.NormSq()
  }

  /**
   `e` points the way `v` does: parallel to it and on its side. For a unit
   `e` this makes it (cos a, sin a) for a = atan2(v.y, v.x).
   */
  predicate PointsAlong(e: Vec, v: Vec) {
    e.x * v.y == e.y * v.x && e.Dot(v) > 0.0
  }

  /** The canvas: window.innerWidth by window.innerHeight pixels. */
  datatype View = View(width: nat, height: nat) {

    function W(): real {
      width as real
    }

    function H(): real {
      height as real
    }

    /** (centerX, centerY) as the resize handler sets them. */
    function Center(): Vec {
      Vec(W() / 2.0, H() / 2.0)
    }

    /** Math.max(width, height). */
    function MaxSide(): (m: real)
      ensures m >= W() && m >= H()
      ensures m == W() || m == H()
    {
      if width >= height then W() else H()
    }

    /** The point lies in the canvas grown by `margin` pixels on every side. */
    predicate WithinMargin(p: Vec, margin: real) {
      -margin <= p.x <= W() + margin && -margin <= p.y <= H() + margin
    }
  }

  /** A unit vector scaled by a non-negative length has that length. */
  lemma ScaledDirLength(e: Dir, h: real)
    requires h >= 0.0
    ensures IsDistance(h, e.Times(h))
  {
    calc {
      e.Times(h).NormSq();
      (h * e.x) * (h * e.x) + (h * e.y) * (h * e.y);
      (h * h) * (e.x * e.x + e.y * e.y);
      h * h;
    }
  }

  /** Rounds toward zero, as the engine's `%` does before multiplying back. */
  function Trunc(q: real): int {
    if q >= 0.0 then q.Floor else -((-q).Floor)
  }

  /**
   The engine's floating remainder `a % (Math.PI * 2)`: the result keeps the
   sign of `a`, is smaller than a full turn in magnitude, and differs from `a`
   by a whole number of turns.
   */
  function PhaseMod(a: real): (r: real)
    ensures a >= 0.0 ==> 0.0 <= r < TwoPi
    ensures a < 0.0 ==> -TwoPi < r <= 0.0
    ensures 0.0 <= a < TwoPi ==> r == a
    ensures a - r == Trunc(a / TwoPi) as real * TwoPi
  {
    a - Trunc(a / TwoPi) as real * TwoPi
  }
}

=== FILE: gravity.dfy ===
/**
 The integrator pieces that every Canvas-2D particle variant shares: the
 inverse-square pull with its tangential swirl and the 0.99 damping, the
 annulus a particle respawns on, and the fresh random velocity it gets.
 */
module Gravity {
  import opened Geometry

  /** Velocity kept per tick after the kick. */
  const Damping: real := 0.99

  /** The tangential force as a fraction of the radial force, before the accretion-speed factor. */
  const SwirlShare: real := 0.3

  /** Inner radius of the respawn annulus, and the fraction of the longer side it extends by. */
  const RespawnInner: real := 300.0
  const RespawnSpread: real := 0.7

  /** A vector turned by +90 degrees: (cos(a + pi/2), sin(a + pi/2)) for (cos a, sin a). */
  function Perp(u: Vec): Vec {
    Vec(-u.y, u.x)
  }

  /** A positive number above one has a square above one. */
  lemma SquareAboveOne(d: real)
    requires d > 1.0
    ensures d * d > 1.0
  {
    assert d * d - 1.0 == (d - 1.0) * (d + 1.0);
    assert (d - 1.0) * (d + 1.0) > 0.0;
  }

  /** An offset divided by its length is a unit vector. */
  lemma OffsetOverLengthIsUnit(v: Vec, dist: real)
    requires IsDistance(dist, v) && dist > 0.0
    ensures v.Times(1.0 / dist).NormSq() == 1.0
  {
    var k := 1.0 / dist;
    assert k * dist == 1.0;
    calc {
      v.Times(k).NormSq();
      (k * v.x) * (k * v.x) + (k * v.y) * (k * v.y);
      (k * k) * (v.x * v.x + v.y * v.y);
      (k * k) * (dist * dist);
      (k * dist) * (k * dist);
      1.0;
    }
  }

  /**
   One tick's change of velocity, before damping, for a particle whose offset
   to the centre is `toCenter` with length `dist`: nothing within one pixel of
   the centre; otherwise the pull g * mass / dist^2 along the unit offset
   (cos a, sin a) = toCenter / dist, plus `SwirlShare * spin` times that pull
   along the offset turned by +90 degrees.
   */
  function Impulse(toCenter: Vec, dist: real, g: real, mass: real, spin: real): Vec
    requires IsDistance(dist, toCenter)
  {
    if dist > 1.0 then
      SquareAboveOne(dist);
      var f := g * mass / toCenter.NormSq();
      var u := toCenter.Times(1.0 / dist);
      u.Times(f).Plus(Perp(u).Times(f * SwirlShare * spin))
    else Vec(0.0, 0.0)
  }

  /**
   The velocity after one tick: the impulse added, then both components
   scaled by 0.99. Within one pixel of the centre only the damping acts;
   beyond it, along the unit offset u = toCenter / dist the new velocity is
   0.99 * (old component + g * mass / dist^2), and across it (along u turned
   by +90 degrees) 0.99 * (old component + SwirlShare * spin * that pull).
   The two components fix the vector, since u and its turn are orthonormal.
   */
  function Kick(vel: Vec, toCenter: Vec, dist: real, g: real, mass: real, spin: real): (v: Vec)
    requires IsDistance(dist, toCenter)
    ensures dist <= 1.0 ==> v == Vec(0.99 * vel.x, 0.99 * vel.y)
    ensures dist > 1.0 ==> (v.Dot(toCenter.Times(1.0 / dist)) ==
      Damping * (vel.Dot(toCenter.Times(1.0 / dist)) + g * mass / toCenter.NormSq()))
    ensures dist > 1.0 ==> (v.Dot(Perp(toCenter.Times(1.0 / dist))) ==
      Damping * (vel.Dot(Perp(toCenter.Times(1.0 / dist))) + g * mass / toCenter.NormSq() * SwirlShare * spin))
  {
    var i := Impulse(toCenter, dist, g, mass, spin);
    var v := Vec((vel.x + i.x) * Damping, (vel.y + i.y) * Damping);
    assert dist > 1.0 ==> (v.Dot(toCenter.Times(1.0 / dist)) ==
      Damping * (vel.Dot(toCenter.Times(1.0 / dist)) + g * mass / toCenter.NormSq())) by {
      if dist > 1.0 {
        ImpulseSplitsIntoPullAndSwirl(toCenter, dist, g, mass, spin);
        DampedSum(vel, i, toCenter.Times(1.0 / dist));
      }
    }
    assert dist > 1.0 ==> (v.Dot(Perp(toCenter.Times(1.0 / dist))) ==
      Damping * (vel.Dot(Perp(toCenter.Times(1.0 / dist))) + g * mass / toCenter.NormSq() * SwirlShare * spin)) by {
      if dist > 1.0 {
        ImpulseSplitsIntoPullAndSwirl(toCenter, dist, g, mass, spin);
        DampedSum(vel, i, Perp(toCenter.Times(1.0 / dist)));
      }
    }
    v
  }

  /** Damping the sum of two vectors damps the sum of their components along any direction. */
  lemma DampedSum(vel: Vec, i: Vec, w: Vec)
    ensures Vec((vel.x + i.x) * Damping, (vel.y + i.y) * Damping).Dot(w) == Damping * (vel.Dot(w) + i.Dot(w))
  {
  }

  /**
   Beyond one pixel the impulse has a component of exactly g * mass / dist^2
   toward the centre and exactly `SwirlShare * spin` times that across it.
   */
  lemma ImpulseSplitsIntoPullAndSwirl(toCenter: Vec, dist: real, g: real, mass: real, spin: real)
    requires IsDistance(dist, toCenter) && dist > 1.0
    ensures toCenter.Times(1.0 / dist).NormSq() == 1.0
    ensures Impulse(toCenter, dist, g, mass, spin).Dot(toCenter.Times(1.0 / dist)) ==
      g * mass / toCenter.NormSq()
    ensures Impulse(toCenter, dist, g, mass, spin).Dot(Perp(toCenter.Times(1.0 / dist))) ==
      g * mass / toCenter.NormSq() * SwirlShare * spin
  {
    var u := toCenter.Times(1.0 / dist);
    var f := g * mass / toCenter.NormSq();
    var t := f * SwirlShare * spin;
    OffsetOverLengthIsUnit(toCenter, dist);
    assert Impulse(toCenter, dist, g, mass, spin) == u.Times(f).Plus(Perp(u).Times(t));
    TurnedDots(u, f, t);
  }

  /** The vector f * u + t * Perp(u) has components f and t along the unit vector u and across it. */
  lemma TurnedDots(u: Vec, f: real, t: real)
    requires u.NormSq() == 1.0
    ensures u.Times(f).Plus(Perp(u).Times(t)).Dot(u) == f
    ensures u.Times(f).Plus(Perp(u).Times(t)).Dot(Perp(u)) == t
  {
    var i := u.Times(f).Plus(Perp(u).Times(t));
    assert i.Dot(u) == f * (u.x * u.x + u.y * u.y);
    assert i.Dot(Perp(u)) == t * (u.x * u.x + u.y * u.y);
  }

  /**
   A particle at rest more than one pixel from the centre leaves the tick
   moving toward the centre at 0.99 * g * mass / dist^2 and across the radius
   at 0.3 * spin times that. With g = 500, mass = 150 and dist = 300 the pull
   is 5/6 of a pixel per tick.
   */
  lemma KickFromRest(toCenter: Vec, dist: real, g: real, mass: real, spin: real)
    requires IsDistance(dist, toCenter) && dist > 1.0
    ensures var u := toCenter.Times(1.0 / dist);
      var f := g * mass / toCenter.NormSq();
      var v := Kick(Vec(0.0, 0.0), toCenter, dist, g, mass, spin);
      v.Dot(u) == Damping * f && v.Dot(Perp(u)) == Damping * f * SwirlShare * spin
    ensures dist == 300.0 && g == 500.0 && mass == 150.0 ==> g * mass / toCenter.NormSq() == 5.0 / 6.0
  {
    var u := toCenter.Times(1.0 / dist);
    var i := Impulse(toCenter, dist, g, mass, spin);
    ImpulseSplitsIntoPullAndSwirl(toCenter, dist, g, mass, spin);
    assert Kick(Vec(0.0, 0.0), toCenter, dist, g, mass, spin) == i.Times(Damping);
    ScaledDot(i, u, Damping);
    ScaledDot(i, Perp(u), Damping);
    if dist == 300.0 && g == 500.0 && mass == 150.0 {
      assert toCenter.NormSq() == 90000.0;
    }
  }

  /** Scaling a vector scales its component along any direction. */
  lemma ScaledDot(i: Vec, w: Vec, k: real)
    ensures i.Times(k).Dot(w) == k * i.Dot(w)
  {
    assert (k * i.x) * w.x + (k * i.y) * w.y == k * (i.x * w.x + i.y * w.y);
  }

  /** Distance from the centre of a respawned particle: a random fraction of 0.7 of the longer side, plus 300. */
  function RespawnRadius(view: View, u: Uniform): (d: real)
    ensures d >= RespawnInner
    ensures view.MaxSide() > 0.0 ==> d < RespawnInner + RespawnSpread * view.MaxSide()
  {
    var m := view.MaxSide();
    assert u * m >= 0.0;
    assert m > 0.0 ==> m - u * m == (1.0 - u) * m > 0.0;
    u * m * RespawnSpread + RespawnInner
  }

  /**
   `respawn()`: a point at a random angle and at `RespawnRadius` from the
   centre, so that its offset from the centre has exactly that length.
   */
  function RespawnPos(view: View, dir: Dir, u: Uniform): (p: Vec)
    ensures IsDistance(RespawnRadius(view, u), p.Minus(view.Center()))
  {
    var d := RespawnRadius(view, u);
    var c := view.Center();
    var p := Vec(c.x + dir.x * d, c.y + dir.y * d);
    assert p.Minus(c) == Vec(dir.x * d, dir.y * d);
    calc {
      p.Minus(c).NormSq();
      (dir.x * d) * (dir.x * d) + (dir.y * d) * (dir.y * d);
      (dir.x * dir.x + dir.y * dir.y) * (d * d);
      d * d;
    }
    p
  }

  /** `(Math.random() - 0.5) * 2` per component: each in [-1, 1). */
  function FreshVelocity(ux: Uniform, uy: Uniform): (v: Vec)
    ensures -1.0 <= v.x < 1.0 && -1.0 <= v.y < 1.0
  {
    Vec((ux - 0.5) * 2.0, (uy - 0.5) * 2.0)
  }
}

=== FILE: particles.dfy ===
/**
 The trail-carrying particle of the Canvas-2D renderer (the `Particle` class
 of script-simple.js, repeated line for line in script-webgl.js): its
 constructor, one tick of its update, and the numbers its draw call uses.
 */
module Particles {
  import opened Geometry
  import opened SimConfig
  import opened Gravity
  import opened Field
  import Trails

  /** Life lost per tick strictly inside the Schwarzschild radius. */
  const AbsorbRate: real := 0.05

  /** Trails are kept only for particles that started the tick closer than this. */
  const TrailReach: real := 400.0

  /** How far past the canvas edge a particle may drift before infinite zoom relocates it. */
  const ZoomMargin: real := 100.0

  datatype Particle = Particle(pos: Vec, vel: Vec, life: real, size: real, hue: real, trail: seq<Vec>) {

    /** Life in (0, 1] and a trail of at most ten points. */
    predicate Valid() {
      0.0 < life <= 1.0 && |trail| <= Trails.MaxLen
    }
  }

  /** The six Math.random() draws of the constructor, in call order. */
  datatype SpawnDraws = SpawnDraws(ux: Uniform, uy: Uniform, uvx: Uniform, uvy: Uniform, usize: Uniform, uhue: Uniform)

  /** The draws a respawn consumes: the angle (as its cos/sin), the radius, and the two velocity components. */
  datatype RespawnDraws = RespawnDraws(dir: Dir, udist: Uniform, uvx: Uniform, uvy: Uniform)

  /**
   What one tick takes from outside: Math.sqrt of the squared distance to the
   centre, the draws used if the particle respawns, and (cos, sin) of the
   atan2 angle that infinite zoom reads when the particle has left the margin.
   */
  datatype TickInput = TickInput(dist: real, respawn: RespawnDraws, exitDir: Dir)

  /**
   The tick's inputs are the browser's values: `dist` is the particle's true
   distance to the centre, and when infinite zoom is on and the moved
   particle has left the margin, `exitDir` is (cos, sin) of the atan2 of its
   offset from the centre, the only case in which the tick reads it.
   */
  predicate Fits(p: Particle, cfg: Config, view: View, inp: TickInput) {
    IsDistance(inp.dist, view.Center().Minus(p.pos)) &&
    (cfg.infiniteZoom ==>
      var q := Absorb(Move(p, cfg, view, inp.dist), cfg, view, inp.dist, inp.respawn).pos;
      view.WithinMargin(q, ZoomMargin) || PointsAlong(inp.exitDir, q.Minus(view.Center())))
  }

  /** `Math.random() * k` for k >= 0: a value in [0, k], strictly below k when k > 0. */
  function ScaledDraw(u: Uniform, k: real): (r: real)
    requires k >= 0.0
    ensures 0.0 <= r <= k
    ensures k > 0.0 ==> r < k
  {
    var rest := 1.0 - u;
    assert u * k >= 0.0 && rest * k >= 0.0;
    assert k > 0.0 ==> rest * k > 0.0;
    assert k - u * k == rest * k;
    u * k
  }

  /**
   `new Particle()`: a uniformly placed point on the canvas, a velocity in
   [-1, 1) per component, full life, a size in [0.5, 2.5), a hue in
   [200, 260) and no trail.
   */
  function Spawn(view: View, d: SpawnDraws): (p: Particle)
    ensures p.Valid() && p.life == 1.0 && p.trail == []
    ensures 0.0 <= p.pos.x <= view.W() && 0.0 <= p.pos.y <= view.H()
    ensures -1.0 <= p.vel.x < 1.0 && -1.0 <= p.vel.y < 1.0
    ensures 0.5 <= p.size < 2.5 && 200.0 <= p.hue < 260.0
  {
    Particle(Vec(ScaledDraw(d.ux, view.W()), ScaledDraw(d.uy, view.H())), FreshVelocity(d.uvx, d.uvy), 1.0,
             ScaledDraw(d.usize, 2.0) + 0.5, ScaledDraw(d.uhue, 60.0) + 200.0, [])
  }

  /** `n` freshly constructed particles, the i-th from its own draws. */
  function Repopulate(view: View, n: nat, draws: nat -> SpawnDraws): seq<Particle> {
    Fresh(n, i => Spawn(view, draws(i)))
  }

  /** Life after one tick, given whether the tick started strictly inside the Schwarzschild radius. */
  function NextLife(life: real, inside: bool): real {
    if !inside then life
    else if life - AbsorbRate <= 0.0 then 1.0
    else life - AbsorbRate
  }

  /** Life after `k` consecutive ticks inside the radius. */
  function LifeAfterInside(life: real, k: nat): real {
    if k == 0 then life else NextLife(LifeAfterInside(life, k - 1), true)
  }

  /**
   A fresh particle held inside the radius loses 0.05 per tick for nineteen
   ticks and is respawned with full life on the twentieth.
   */
  lemma {:induction false} AbsorbedOnTwentiethTick(k: nat)
    requires k <= 20
    ensures k < 20 ==> LifeAfterInside(1.0, k) == 1.0 - AbsorbRate * k as real
    ensures k == 20 ==> LifeAfterInside(1.0, k) == 1.0
  {
    if k > 0 {
      AbsorbedOnTwentiethTick(k - 1);
    }
  }

  /** Steps 1 to 4 of a tick: gravity kick and damping, then the position advanced by the new velocity. */
  function Move(p: Particle, cfg: Config, view: View, dist: real): (r: Particle)
    requires IsDistance(dist, view.Center().Minus(p.pos))
    ensures r.pos == p.pos.Plus(r.vel)
    ensures r.life == p.life && r.size == p.size && r.hue == p.hue && r.trail == p.trail
    ensures dist <= 1.0 ==> r.vel == Vec(0.99 * p.vel.x, 0.99 * p.vel.y)
    ensures r.vel == Kick(p.vel, view.Center().Minus(p.pos), dist, cfg.gravityStrength, cfg.blackHoleMass, cfg.accretionSpeed)
  {
    var v := Kick(p.vel, view.Center().Minus(p.pos), dist,
                  cfg.gravityStrength, cfg.blackHoleMass, cfg.accretionSpeed);
    p.(vel := v, pos := p.pos.Plus(v))
  }

  /** The particle is respawned this tick: it started strictly inside the radius with life 0.05 or less. */
  predicate Respawns(p: Particle, cfg: Config, dist: real) {
    dist < cfg.schwarzschildRadius && p.life - AbsorbRate <= 0.0
  }

  /**
   Event-horizon absorption: strictly inside the radius the particle loses
   0.05 of life; once life reaches 0 or below it is put back on the respawn
   annulus with full life, a fresh velocity and an empty trail.
   */
  function Absorb(p: Particle, cfg: Config, view: View, dist: real, rd: RespawnDraws): (r: Particle)
    ensures r.life == NextLife(p.life, dist < cfg.schwarzschildRadius)
    ensures r.size == p.size && r.hue == p.hue
    ensures !Respawns(p, cfg, dist) ==> r.pos == p.pos && r.vel == p.vel && r.trail == p.trail
    ensures Respawns(p, cfg, dist) ==>
      r.pos == RespawnPos(view, rd.dir, rd.udist) && r.vel == FreshVelocity(rd.uvx, rd.uvy) && r.trail == []
  {
    if dist < cfg.schwarzschildRadius then
      var life := p.life - AbsorbRate;
      if life <= 0.0 then
        p.(pos := RespawnPos(view, rd.dir, rd.udist), life := 1.0,
           vel := FreshVelocity(rd.uvx, rd.uvy), trail := [])
      else p.(life := life)
    else p
  }

  /**
   Infinite-zoom recycling: a point outside the canvas grown by 100 pixels
   is moved to the centre minus half the longer side along its exit
   direction; any other point stays.
   */
  function Recycle(pos: Vec, view: View, zoom: bool, exitDir: Dir): (r: Vec)
    ensures r != pos ==> zoom && !view.WithinMargin(pos, ZoomMargin)
    ensures zoom && !view.WithinMargin(pos, ZoomMargin) ==>
      r == view.Center().Minus(exitDir.Times(0.5 * view.MaxSide()))
  {
    if zoom && !view.WithinMargin(pos, ZoomMargin) then
      view.Center().Minus(exitDir.Times(0.5 * view.MaxSide()))
    else pos
  }

  /**
   `to` lies on the line through the centre `c` and `from`, on the other side
   of the centre (or on it), at distance `r` from the centre.
   */
  predicate MirroredAt(from: Vec, to: Vec, c: Vec, r: real) {
    var off := from.Minus(c);
    var back := to.Minus(c);
    IsDistance(r, back) && back.x * off.y == back.y * off.x && back.Dot(off) <= 0.0
  }

  /**
   When `exitDir` is the direction from the centre to the escaped point (the
   cos/sin of its atan2), the relocated point lies on the opposite side of the
   centre, on the same line, at half the longer side from it.
   */
  lemma RecycleMirrorsThroughCentre(pos: Vec, view: View, exitDir: Dir)
    requires !view.WithinMargin(pos, ZoomMargin)
    requires PointsAlong(exitDir, pos.Minus(view.Center()))
    ensures MirroredAt(pos, Recycle(pos, view, true, exitDir), view.Center(), 0.5 * view.MaxSide())
  {
    var c := view.Center();
    var half := 0.5 * view.MaxSide();
    assert Recycle(pos, view, true, exitDir).Minus(c) == Vec(-(half * exitDir.x), -(half * exitDir.y));
    ReversedDir(exitDir, pos.Minus(c), half);
  }

  /** A unit vector pointing along `off`, turned around and scaled by `h >= 0`, has length `h` and points away from `off`. */
  lemma ReversedDir(e: Dir, off: Vec, h: real)
    requires h >= 0.0 && PointsAlong(e, off)
    ensures var back := Vec(-(h * e.x), -(h * e.y));
      IsDistance(h, back) && back.x * off.y == back.y * off.x && back.Dot(off) <= 0.0
  {
    ScaledDirLength(e, h);
    assert Vec(-(h * e.x), -(h * e.y)).NormSq() == e.Times(h).NormSq();
    Reversed(h, e.x, e.y, off.x, off.y);
  }

  /** Turning a vector that points along `o` around and scaling it by `h >= 0` keeps it parallel to `o` and off its side. */
  lemma Reversed(h: real, ex: real, ey: real, ox: real, oy: real)
    requires h >= 0.0 && ex * oy == ey * ox && ex * ox + ey * oy > 0.0
    ensures -(h * ex) * oy == -(h * ey) * ox
    ensures -(h * ex) * ox + -(h * ey) * oy <= 0.0
  {
    assert -(h * ex) * oy == -h * (ex * oy);
    assert -(h * ey) * ox == -h * (ey * ox);
    assert -(h * ex) * ox + -(h * ey) * oy == -h * (ex * ox + ey * oy);
  }

  /**
   On a 1920 by 1080 canvas a particle leaving straight down past the margin
   is relocated 960 pixels above the centre, which is still outside the
   margin: the relocation target need not be on screen.
   */
  lemma RecycleCanLandOutsideMargin()
    ensures !View(1920, 1080).WithinMargin(Vec(960.0, 1200.0), ZoomMargin)
    ensures Recycle(Vec(960.0, 1200.0), View(1920, 1080), true, Vec(0.0, 1.0)) == Vec(960.0, -420.0)
    ensures !View(1920, 1080).WithinMargin(Vec(960.0, -420.0), ZoomMargin)
  {
    var view := View(1920, 1080);
    assert view.MaxSide() == 1920.0;
    assert view.Center() == Vec(960.0, 540.0);
    assert !view.WithinMargin(Vec(960.0, 1200.0), ZoomMargin);
    assert Vec(0.0, 1.0).Times(0.5 * view.MaxSide()) == Vec(0.0, 960.0);
    assert !view.WithinMargin(Vec(960.0, -420.0), ZoomMargin);
  }

  /** Trail maintenance: near the hole push the position (keeping ten), otherwise drop the trail. */
  function NextTrail(trail: seq<Vec>, pos: Vec, dist: real): (r: seq<Vec>)
    ensures dist >= TrailReach ==> r == []
    ensures dist < TrailReach ==> r == Trails.Push(trail, pos)
  {
    if dist < TrailReach then Trails.Push(trail, pos) else []
  }

  /** The particle after absorption and before recycling and trail maintenance. */
  function BeforeRecycle(p: Particle, cfg: Config, view: View, inp: TickInput): Particle
    requires IsDistance(inp.dist, view.Center().Minus(p.pos))
  {
    Absorb(Move(p, cfg, view, inp.dist), cfg, view, inp.dist, inp.respawn)
  }

  /**
   `Particle.update()`: one tick of kick, damping, motion, absorption,
   infinite-zoom recycling and trail maintenance, every threshold compared
   against the distance at the start of the tick.
   */
  function Tick(p: Particle, cfg: Config, view: View, inp: TickInput): (r: Particle)
    requires Fits(p, cfg, view, inp)
    ensures p.Valid() ==> r.Valid()
    ensures r.size == p.size && r.hue == p.hue
    ensures r.life == NextLife(p.life, inp.dist < cfg.schwarzschildRadius)
    ensures inp.dist >= cfg.schwarzschildRadius ==> r.life == p.life
    ensures inp.dist < cfg.schwarzschildRadius && p.life > AbsorbRate ==> r.life == p.life - AbsorbRate
    ensures Respawns(p, cfg, inp.dist) ==>
      r.life == 1.0 && r.vel == FreshVelocity(inp.respawn.uvx, inp.respawn.uvy) && |r.trail| <= 1
    ensures !Respawns(p, cfg, inp.dist) && inp.dist <= 1.0 ==> r.vel == Vec(0.99 * p.vel.x, 0.99 * p.vel.y)
    ensures !Respawns(p, cfg, inp.dist) ==>
      r.vel == Kick(p.vel, view.Center().Minus(p.pos), inp.dist, cfg.gravityStrength, cfg.blackHoleMass, cfg.accretionSpeed)
    ensures !Respawns(p, cfg, inp.dist) && !cfg.infiniteZoom ==> r.pos == p.pos.Plus(r.vel)
    ensures r.pos == Recycle(BeforeRecycle(p, cfg, view, inp).pos, view, cfg.infiniteZoom, inp.exitDir)
    ensures cfg.infiniteZoom && !view.WithinMargin(BeforeRecycle(p, cfg, view, inp).pos, ZoomMargin) ==>
      MirroredAt(BeforeRecycle(p, cfg, view, inp).pos, r.pos, view.Center(), 0.5 * view.MaxSide())
    ensures inp.dist >= TrailReach ==> r.trail == []
    ensures inp.dist < TrailReach ==> |r.trail| >= 1 && r.trail[|r.trail| - 1] == r.pos
    ensures inp.dist < TrailReach && !Respawns(p, cfg, inp.dist) && |p.trail| <= Trails.MaxLen ==>
      r.trail == Trails.LastN(p.trail + [r.pos], Trails.MaxLen)
  {
    var a := BeforeRecycle(p, cfg, view, inp);
    var pos := Recycle(a.pos, view, cfg.infiniteZoom, inp.exitDir);
    assert cfg.infiniteZoom && !view.WithinMargin(a.pos, ZoomMargin) ==>
      MirroredAt(a.pos, pos, view.Center(), 0.5 * view.MaxSide()) by {
      if cfg.infiniteZoom && !view.WithinMargin(a.pos, ZoomMargin) {
        RecycleMirrorsThroughCentre(a.pos, view, inp.exitDir);
      }
    }
    a.(pos := pos, trail := NextTrail(a.trail, pos, inp.dist))
  }

  /**
   Infinite zoom moves only the position: a tick under any configuration
   leaves the same velocity, life, size, hue and trail length as the same
   tick with zoom switched off, and the same trail apart from its newest
   point.
   */
  lemma RecycleTouchesOnlyPosition(p: Particle, cfg: Config, view: View, inp: TickInput)
    requires Fits(p, cfg, view, inp)
    ensures SameButPosition(Tick(p, cfg, view, inp), Tick(p, cfg.(infiniteZoom := false), view, inp))
  {
    var a := BeforeRecycle(p, cfg, view, inp);
    BeforeRecycleIgnoresZoom(p, cfg, view, inp);
    var x := Recycle(a.pos, view, cfg.infiniteZoom, inp.exitDir);
    assert Tick(p, cfg, view, inp) == a.(pos := x, trail := NextTrail(a.trail, x, inp.dist));
    assert Tick(p, cfg.(infiniteZoom := false), view, inp) == a.(trail := NextTrail(a.trail, a.pos, inp.dist));
    if inp.dist < TrailReach {
      Trails.PushKeepsOlder(a.trail, x, a.pos);
    }
  }

  /** Absorption and motion do not read the infinite-zoom switch. */
  lemma BeforeRecycleIgnoresZoom(p: Particle, cfg: Config, view: View, inp: TickInput)
    requires IsDistance(inp.dist, view.Center().Minus(p.pos))
    ensures BeforeRecycle(p, cfg.(infiniteZoom := true), view, inp) == BeforeRecycle(p, cfg, view, inp)
    ensures BeforeRecycle(p, cfg.(infiniteZoom := false), view, inp) == BeforeRecycle(p, cfg, view, inp)
  {
  }

  /** Two particles that agree in everything but their position and the newest point of their trail. */
  predicate SameButPosition(a: Particle, b: Particle) {
    a.vel == b.vel && a.life == b.life && a.size == b.size && a.hue == b.hue &&
    |a.trail| == |b.trail| && forall i :: 0 <= i < |a.trail| - 1 ==> a.trail[i] == b.trail[i]
  }

  /** Spaghettification: the ellipse's long-axis factor, 1 at two radii or more, rising linearly to 4 at the centre. */
  function Stretch(dist: real, rs: real): (ratio: real)
    requires dist >= 0.0
    ensures dist >= 2.0 * rs ==> ratio == 1.0
    ensures dist < 2.0 * rs ==> 1.0 < ratio <= 4.0
    ensures dist == 0.0 && rs > 0.0 ==> ratio == 4.0
  {
    if dist < rs * 2.0 then
      var closeness := 1.0 - dist / (rs * 2.0);
      assert dist / (rs * 2.0) * (rs * 2.0) == dist;
      assert 0.0 <= dist / (rs * 2.0) < 1.0;
      1.0 + closeness * 3.0
    else 1.0
  }

  /** A particle closer to the hole is never less stretched. */
  lemma StretchGrowsTowardHole(d1: real, d2: real, rs: real)
    requires 0.0 <= d1 <= d2
    ensures Stretch(d1, rs) >= Stretch(d2, rs)
  {
    if d2 < rs * 2.0 {
      var k := rs * 2.0;
      assert d1 / k * k == d1 && d2 / k * k == d2;
      assert (d2 - d1) / k * k == d2 - d1;
      assert d2 / k - d1 / k == (d2 - d1) / k >= 0.0;
    }
  }

  /** Gravitational redshift: the hue shift, 0 at three radii or more, rising linearly to 80 degrees at the centre. */
  function Redshift(dist: real, rs: real): (shift: real)
    requires dist >= 0.0
    ensures dist >= 3.0 * rs ==> shift == 0.0
    ensures dist < 3.0 * rs ==> 0.0 < shift <= 80.0
    ensures dist == 0.0 && rs > 0.0 ==> shift == 80.0
  {
    if dist < rs * 3.0 then
      var k := rs * 3.0;
      assert (k - dist) / k * k == k - dist;
      assert 0.0 < (k - dist) / k <= 1.0;
      (k - dist) / k * 80.0
    else 0.0
  }

  /** A particle closer to the hole is never less redshifted. */
  lemma RedshiftGrowsTowardHole(d1: real, d2: real, rs: real)
    requires 0.0 <= d1 <= d2
    ensures Redshift(d1, rs) >= Redshift(d2, rs)
  {
    if d2 < rs * 3.0 {
      var k := rs * 3.0;
      assert (k - d1) / k * k == k - d1 && (k - d2) / k * k == k - d2;
      assert (d2 - d1) / k * k == d2 - d1;
      assert (k - d1) / k - (k - d2) / k == (d2 - d1) / k >= 0.0;
    }
  }

  /** The numbers one `draw()` call hands to the canvas: the ellipse's stretch and radii, its hue, and two alphas. */
  datatype Sprite = Sprite(stretch: real, rx: real, ry: real, hue: real, alpha: real, trailAlpha: real, drawsTrail: bool)

  /**
   `Particle.draw()`: a trail stroke at alpha life * 0.3 when the trail has
   two or more points, and a body ellipse of radii (size * stretch, size),
   stretched by `Stretch`, its hue shifted by `Redshift`, at alpha life; the
   distance is measured from the particle to the centre.
   */
  function Draw(p: Particle, rs: real, view: View, dist: real): (s: Sprite)
    requires IsDistance(dist, view.Center().Minus(p.pos))
    ensures s.stretch == Stretch(dist, rs) && 1.0 <= s.stretch <= 4.0
    ensures s.rx == p.size * s.stretch && s.ry == p.size
    ensures s.hue == p.hue + Redshift(dist, rs) && p.hue <= s.hue <= p.hue + 80.0
    ensures s.alpha == p.life && s.trailAlpha == 0.3 * p.life
    ensures p.Valid() ==> 0.0 < s.alpha <= 1.0 && 0.0 < s.trailAlpha <= 0.3
    ensures s.drawsTrail <==> |p.trail| > 1
  {
    var k := Stretch(dist, rs);
    Sprite(k, p.size * k, p.size, p.hue + Redshift(dist, rs), p.life, p.life * 0.3, |p.trail| > 1)
  }

  /**
   Of two particles of one hue, the one nearer the hole is drawn at least as
   stretched and at least as far toward the red.
   */
  lemma NearerIsDrawnMoreDistorted(p: Particle, q: Particle, rs: real, view: View, dp: real, dq: real)
    requires IsDistance(dp, view.Center().Minus(p.pos)) && IsDistance(dq, view.Center().Minus(q.pos))
    requires dp <= dq && p.hue == q.hue
    ensures Draw(p, rs, view, dp).stretch >= Draw(q, rs, view, dq).stretch
    ensures Draw(p, rs, view, dp).hue >= Draw(q, rs, view, dq).hue
  {
    StretchGrowsTowardHole(dp, dq, rs);
    RedshiftGrowsTowardHole(dp, dq, rs);
  }
}

=== FILE: pools.dfy ===
/**
 The bounded particle pools behind the jets and the Hawking radiation: at most
 one new member per tick, admitted while the pool is below its cap and a draw
 falls under the spawn chance, then every member advanced and the expired
 ones dropped (`particles = particles.filter(p => { advance p; return keep })`).
 */
module Pools {

  /** `s.filter(p => { step(p); return keep(p) })`: advance every member, keep those that still qualify, in order. */
  function Survivors<T>(s: seq<T>, step: T -> T, keep: T -> bool): (r: seq<T>)
    ensures |r| <= |s|
    ensures forall x :: x in r ==> keep(x)
    ensures forall i :: 0 <= i < |s| && keep(step(s[i])) ==> step(s[i]) in r
    ensures forall x :: x in r ==> exists i :: 0 <= i < |s| && x == step(s[i])
  {
    if s == [] then []
    else
      var rest := Survivors(s[1..], step, keep);
      assert forall i :: 1 <= i < |s| ==> s[i] == s[1..][i - 1];
      var x := step(s[0]);
      if keep(x) then [x] + rest else rest
  }

  /** The pool after the spawn test: one member appended when below `cap` and the draw is under `chance`. */
  function Admit<T>(s: seq<T>, cap: nat, roll: real, chance: real, newcomer: T): seq<T> {
    if |s| < cap && roll < chance then s + [newcomer] else s
  }

  /**
   Culling keeps arrival order: the survivors of a pool with a newcomer
   appended are the survivors of the pool, followed by the newcomer if it
   survives its first step.
   */
  lemma {:induction false} SurvivorsOfAppend<T>(s: seq<T>, x: T, step: T -> T, keep: T -> bool)
    ensures Survivors(s + [x], step, keep) ==
      Survivors(s, step, keep) + (if keep(step(x)) then [step(x)] else [])
  {
    if s == [] {
      assert [x][1..] == [];
    } else {
      assert (s + [x])[1..] == s[1..] + [x];
      SurvivorsOfAppend(s[1..], x, step, keep);
    }
  }

  /**
   A property every member has, and that advancing a member preserves
   whenever the advanced member is kept, holds for every survivor.
   */
  lemma SurvivorsKeepInvariant<T>(s: seq<T>, step: T -> T, keep: T -> bool, inv: T -> bool)
    requires forall i :: 0 <= i < |s| ==> inv(s[i])
    requires forall x :: inv(x) && keep(step(x)) ==> inv(step(x))
    ensures forall i :: 0 <= i < |Survivors(s, step, keep)| ==> inv(Survivors(s, step, keep)[i])
  {
    var r := Survivors(s, step, keep);
    forall i | 0 <= i < |r|
      ensures inv(r[i])
    {
      assert r[i] in r;
      var k :| 0 <= k < |s| && r[i] == step(s[k]);
      assert inv(s[k]) && keep(step(s[k]));
    }
  }

  /**
   One tick of a pool: every member left is the step of an old member, or of
   the newcomer when it was admitted; every old member that qualifies after
   its step is kept; and an admitted newcomer that qualifies comes last.
   */
  lemma AdmitThenSurvive<T>(s: seq<T>, cap: nat, roll: real, chance: real, newcomer: T, step: T -> T, keep: T -> bool)
    ensures forall x :: x in Survivors(Admit(s, cap, roll, chance, newcomer), step, keep) ==>
      (exists e :: e in s && x == step(e)) || (|s| < cap && roll < chance && x == step(newcomer))
    ensures forall e :: e in s && keep(step(e)) ==> step(e) in Survivors(Admit(s, cap, roll, chance, newcomer), step, keep)
    ensures |s| < cap && roll < chance && keep(step(newcomer)) ==>
      var r := Survivors(Admit(s, cap, roll, chance, newcomer), step, keep);
      |r| > 0 && r[|r| - 1] == step(newcomer)
  {
    var a := Admit(s, cap, roll, chance, newcomer);
    var r := Survivors(a, step, keep);
    forall x | x in r
      ensures (exists e :: e in s && x == step(e)) || (|s| < cap && roll < chance && x == step(newcomer))
    {
      var i :| 0 <= i < |a| && x == step(a[i]);
      if i < |s| {
        assert a[i] in s;
      }
    }
    forall e | e in s && keep(step(e))
      ensures step(e) in r
    {
      var i :| 0 <= i < |s| && s[i] == e;
      assert a[i] == e;
    }
    if |s| < cap && roll < chance {
      SurvivorsOfAppend(s, newcomer, step, keep);
    }
  }
}

=== FILE: scene.dfy ===
/**
 The Canvas-2D renderer's whole state (script-simple.js): the configuration,
 the canvas, the particle array, the 400 background stars, the disk, the two
 jets, the Hawking pool and the animation clock; and the operations on it:
 `initScene`, `applyPreset`, the mass and particle-count handlers, the window
 resize handler, and one frame of `animate`.
 */
module Scene {
  import opened Geometry
  import opened SimConfig
  import opened Particles
  import opened Emitters
  import opened Disk
  import opened Field

  /** Stars created by `initScene`. */
  const StarCount: nat := 400

  /** Phase added to every star per frame, and the clock step per frame. */
  const TwinkleStep: real := 0.02
  const FrameTime: real := 0.016

  datatype Star = Star(x: real, y: real, size: real, twinkle: real)

  /** The four draws of one star, in the order `initScene` makes them. */
  datatype StarDraws = StarDraws(ux: Uniform, uy: Uniform, usize: Uniform, utwinkle: Uniform)

  /** A star somewhere on the canvas, of size [0.5, 2.5) and phase [0, 2 pi). */
  function NewStar(view: View, d: StarDraws): (s: Star)
    ensures 0.0 <= s.x <= view.W() && 0.0 <= s.y <= view.H()
    ensures 0.5 <= s.size < 2.5 && 0.0 <= s.twinkle < TwoPi
  {
    Star(ScaledDraw(d.ux, view.W()), ScaledDraw(d.uy, view.H()), ScaledDraw(d.usize, 2.0) + 0.5,
         ScaledDraw(d.utwinkle, TwoPi))
  }

  /** One frame of `drawStarField` for one star: the phase advances by 0.02 modulo a full turn. */
  function Twinkle(s: Star): (r: Star)
    ensures r.x == s.x && r.y == s.y && r.size == s.size
    ensures s.twinkle >= 0.0 ==> 0.0 <= r.twinkle < TwoPi
  {
    s.(twinkle := PhaseMod(s.twinkle + TwinkleStep))
  }

  /**
   A phase in [0, 2 pi) advances by exactly 0.02, wrapping once past a full
   turn.
   */
  lemma TwinkleWraps(s: Star)
    requires 0.0 <= s.twinkle < TwoPi
    ensures s.twinkle + TwinkleStep < TwoPi ==> Twinkle(s).twinkle == s.twinkle + TwinkleStep
    ensures s.twinkle + TwinkleStep >= TwoPi ==> Twinkle(s).twinkle == s.twinkle + TwinkleStep - TwoPi
  {
    var a := s.twinkle + TwinkleStep;
    var k := Trunc(a / TwoPi);
    assert a - PhaseMod(a) == k as real * TwoPi;
    if a >= TwoPi {
      assert k as real * TwoPi > 0.0 && k as real * TwoPi < 2.0 * TwoPi;
      assert k == 1;
    }
  }

  /** The star's fill opacity, 0.2 plus 0.15 times the sine of its phase: always in [0.05, 0.35]. */
  function StarOpacity(sinTwinkle: Sine): (a: real)
    ensures 0.05 <= a <= 0.35
  {
    0.2 + sinTwinkle * 0.15
  }

  datatype SceneState = SceneState(
    cfg: Config,
    view: View,
    particles: seq<Particle>,
    stars: seq<Star>,
    disk: AccretionDisk,
    topJet: Jet,
    bottomJet: Jet,
    hawking: seq<Spark>,
    time: real
  )

  /** The draws `initScene` consumes: one record per particle, per star and per hotspot. */
  datatype InitDraws = InitDraws(particle: nat -> SpawnDraws, star: nat -> StarDraws, hotspot: nat -> HotspotDraws)

  /** The particle array holds exactly as many particles as the configuration says. */
  predicate CountInSync(s: SceneState) {
    |s.particles| == s.cfg.particleCount
  }

  /**
   `initScene()`: the configured number of fresh particles, 400 stars, a new
   disk with its eight hotspots, an upper and a lower jet and a Hawking pool,
   all three empty.
   */
  function InitScene(cfg: Config, view: View, time: real, d: InitDraws): (s: SceneState)
    ensures s.cfg == cfg && s.view == view && s.time == time
    ensures CountInSync(s)
    ensures forall i :: 0 <= i < |s.particles| ==> s.particles[i] == Spawn(view, d.particle(i))
    ensures forall i :: 0 <= i < |s.particles| ==> s.particles[i].Valid()
    ensures |s.stars| == StarCount && forall i :: 0 <= i < StarCount ==> s.stars[i] == NewStar(view, d.star(i))
    ensures |s.disk.hotspots| == HotspotCount
    ensures s.topJet == Jet(true, []) && s.bottomJet == Jet(false, []) && s.hawking == []
  {
    SceneState(cfg, view, Repopulate(view, cfg.particleCount, d.particle),
               Fresh(StarCount, i => NewStar(view, d.star(i))), NewDisk(d.hotspot),
               Jet(true, []), Jet(false, []), [], time)
  }

  /**
   `applyPreset(name)`: a name outside the table changes nothing; otherwise
   the configuration takes the preset's values and, only when the preset's
   particle count differs from the configured one, the particle array is
   rebuilt with that many fresh particles.
   */
  function ApplyPreset(s: SceneState, key: string, draws: nat -> SpawnDraws): (r: SceneState)
    ensures key !in Presets ==> r == s
    ensures key in Presets ==> r.cfg == WithPreset(s.cfg, key, Presets[key])
    ensures key in Presets && Presets[key].particleCount != s.cfg.particleCount ==>
      r.particles == Repopulate(s.view, Presets[key].particleCount, draws)
    ensures key in Presets && Presets[key].particleCount == s.cfg.particleCount ==> r.particles == s.particles
    ensures r == s.(cfg := r.cfg, particles := r.particles)
    ensures CountInSync(s) ==> CountInSync(r)
  {
    match PresetNamed(key)
    case None => s
    case Some(p) =>
      var cfg := WithPreset(s.cfg, key, p);
      if p.particleCount != s.cfg.particleCount then
        s.(cfg := cfg, particles := Repopulate(s.view, p.particleCount, draws))
      else s.(cfg := cfg)
  }

  /** Selecting the same preset again changes nothing: the count already matches, so no rebuild. */
  lemma ApplyPresetIdempotent(s: SceneState, key: string, d1: nat -> SpawnDraws, d2: nat -> SpawnDraws)
    ensures ApplyPreset(ApplyPreset(s, key, d1), key, d2) == ApplyPreset(s, key, d1)
  {
    if key in Presets {
      var once := ApplyPreset(s, key, d1);
      assert once.cfg.particleCount == Presets[key].particleCount;
      assert WithPreset(once.cfg, key, Presets[key]) == once.cfg;
    }
  }

  /** The mass slider: only the configuration changes. */
  function OnMassInput(s: SceneState, mass: int): (r: SceneState)
    ensures r.cfg == SetMass(s.cfg, mass) && r == s.(cfg := r.cfg)
    ensures CountInSync(s) ==> CountInSync(r)
  {
    s.(cfg := SetMass(s.cfg, mass))
  }

  /**
   The particle-count slider: resize the array against the configured count,
   then record the new count. A scene whose array matched its count still
   does, and the surviving particles are untouched.
   */
  method OnParticleCountInput(s: SceneState, newCount: nat, draws: nat -> SpawnDraws) returns (r: SceneState)
    ensures r.cfg == s.cfg.(particleCount := newCount)
    ensures r == s.(cfg := r.cfg, particles := r.particles)
    ensures CountInSync(s) ==> CountInSync(r)
    ensures newCount <= s.cfg.particleCount ==> r.particles == s.particles[..Min(newCount, |s.particles|)]
    ensures newCount > s.cfg.particleCount ==>
      r.particles == s.particles + Repopulate(s.view, newCount - s.cfg.particleCount, draws)
  {
    var ps := ResizeByCount(s.particles, s.cfg.particleCount, newCount, i => Spawn(s.view, draws(i)));
    r := s.(cfg := s.cfg.(particleCount := newCount), particles := ps);
  }

  /** The two draws that place one star again after a resize. */
  datatype PlaceDraws = PlaceDraws(ux: Uniform, uy: Uniform)

  /** A star moved to a fresh random point of the canvas, keeping its size and phase. */
  function Scatter(st: Star, view: View, d: PlaceDraws): (r: Star)
    ensures r.size == st.size && r.twinkle == st.twinkle
    ensures 0.0 <= r.x <= view.W() && 0.0 <= r.y <= view.H()
  {
    st.(x := ScaledDraw(d.ux, view.W()), y := ScaledDraw(d.uy, view.H()))
  }

  /** The window resize handler: a new canvas size, and every star scattered afresh over it. */
  function OnWindowResize(s: SceneState, view: View, draws: nat -> PlaceDraws): (r: SceneState)
    ensures r.view == view && |r.stars| == |s.stars|
    ensures forall i :: 0 <= i < |s.stars| ==> r.stars[i] == Scatter(s.stars[i], view, draws(i))
    ensures forall i :: 0 <= i < |s.stars| ==>
      r.stars[i].size == s.stars[i].size && r.stars[i].twinkle == s.stars[i].twinkle &&
      0.0 <= r.stars[i].x <= view.W() && 0.0 <= r.stars[i].y <= view.H()
    ensures r == s.(view := view, stars := r.stars)
  {
    var stars := seq(|s.stars|, i requires 0 <= i < |s.stars| =>
      Scatter(s.stars[i], view, draws(i)));
    s.(view := view, stars := stars)
  }

  /** The layers `animate` paints, bottom to top. */
  datatype Layer = Fade | StarField | DiskRings | BlackHole | Ergosphere | FrameDragging |
                   Jets | HawkingRadiation | ParticleField | Lens

  /** A layer's place in the painter's order. */
  function Depth(l: Layer): nat {
    match l
    case Fade => 0
    case StarField => 1
    case DiskRings => 2
    case BlackHole => 3
    case Ergosphere => 4
    case FrameDragging => 5
    case Jets => 6
    case HawkingRadiation => 7
    case ParticleField => 8
    case Lens => 9
  }

  /** Whether a layer is painted this frame: the optional ones follow their switches, the lens also needs a live lens. */
  predicate Shown(cfg: Config, lensReady: bool, l: Layer) {
    (l == Ergosphere ==> cfg.ergosphere) &&
    (l == FrameDragging ==> cfg.frameDragging) &&
    (l == Jets ==> cfg.relativisticJets) &&
    (l == HawkingRadiation ==> cfg.hawkingRadiation) &&
    (l == Lens ==> cfg.glslLens && lensReady)
  }

  /** Every layer strictly deeper than the one before it: painted over it, and none painted twice. */
  predicate Ascending(ls: seq<Layer>) {
    forall i :: 0 <= i < |ls| - 1 ==> Depth(ls[i]) < Depth(ls[i + 1])
  }

  /** `[l]` when the switch is on, nothing otherwise. */
  function Opt(on: bool, l: Layer): seq<Layer> {
    if on then [l] else []
  }

  /** The layers one frame of `animate` paints, in the order its statements paint them. */
  function FrameLayers(cfg: Config, lensReady: bool): seq<Layer> {
    UnderLens(cfg) + Opt(cfg.glslLens && lensReady, Lens)
  }

  /** The layers painted before the lens pass. */
  function UnderLens(cfg: Config): seq<Layer> {
    UnderParticles(cfg) + [ParticleField]
  }

  /** The layers painted before the particles: the fixed background, then the switched-on effects. */
  function UnderParticles(cfg: Config): seq<Layer> {
    [Fade, StarField, DiskRings, BlackHole] +
    Opt(cfg.ergosphere, Ergosphere) + Opt(cfg.frameDragging, FrameDragging) +
    Opt(cfg.relativisticJets, Jets) + Opt(cfg.hawkingRadiation, HawkingRadiation)
  }

  /** A frame paints exactly the shown layers: the fixed ones always, the optional ones exactly when switched on. */
  lemma FrameShowsExactlySwitchedOn(cfg: Config, lensReady: bool)
    ensures forall l :: l in FrameLayers(cfg, lensReady) <==> Shown(cfg, lensReady, l)
  {
    var ls := FrameLayers(cfg, lensReady);
    forall l
      ensures l in ls <==> Shown(cfg, lensReady, l)
    {
      assert l in ls <==> (l in [Fade, StarField, DiskRings, BlackHole] ||
        l in Opt(cfg.ergosphere, Ergosphere) || l in Opt(cfg.frameDragging, FrameDragging) ||
        l in Opt(cfg.relativisticJets, Jets) || l in Opt(cfg.hawkingRadiation, HawkingRadiation) ||
        l == ParticleField || l in Opt(cfg.glslLens && lensReady, Lens));
    }
  }

  /**
   Appending a layer deeper than the last one keeps a non-empty run
   ascending, keeps its first layer, and leaves a last layer no deeper than
   the one appended.
   */
  lemma AppendDeeper(a: seq<Layer>, on: bool, l: Layer)
    requires |a| > 0 && Ascending(a) && Depth(a[|a| - 1]) < Depth(l)
    ensures var r := a + Opt(on, l);
      Ascending(r) && r[0] == a[0] && Depth(r[|r| - 1]) <= Depth(l) && (on ==> r[|r| - 1] == l)
  {
    if on {
      var r := a + [l];
      forall i | 0 <= i < |r| - 1
        ensures Depth(r[i]) < Depth(r[i + 1])
      {
        if i < |a| - 1 {
          assert r[i] == a[i] && r[i + 1] == a[i + 1];
        }
      }
    } else {
      assert a + [] == a;
    }
  }

  /**
   A frame paints no layer twice: the layers come out in strictly increasing
   depth, so each appears at most once and the particles come after the black
   hole. The fading overlay is always painted first, and the lens pass, when it
   runs, last; otherwise the particle field closes the frame.
   */
  lemma FrameInPainterOrder(cfg: Config, lensReady: bool)
    ensures Ascending(FrameLayers(cfg, lensReady))
    ensures var ls := FrameLayers(cfg, lensReady);
      ls[0] == Fade && ls[|ls| - 1] == (if cfg.glslLens && lensReady then Lens else ParticleField)
  {
    UnderLensInOrder(cfg);
    AppendDeeper(UnderLens(cfg), cfg.glslLens && lensReady, Lens);
  }

  /** The layers under the lens pass run from the fade to the particles in painter's order. */
  lemma UnderLensInOrder(cfg: Config)
    ensures var s := UnderLens(cfg);
      |s| > 0 && Ascending(s) && s[0] == Fade && s[|s| - 1] == ParticleField
  {
    UnderParticlesInOrder(cfg);
    AppendDeeper(UnderParticles(cfg), true, ParticleField);
  }

  /** The background and the effects run from the fade to at most the Hawking layer in painter's order. */
  lemma UnderParticlesInOrder(cfg: Config)
    ensures var s := UnderParticles(cfg);
      |s| > 0 && Ascending(s) && s[0] == Fade && Depth(s[|s| - 1]) <= Depth(HawkingRadiation)
  {
    var s2 := [Fade, StarField, DiskRings, BlackHole] +
      Opt(cfg.ergosphere, Ergosphere) + Opt(cfg.frameDragging, FrameDragging);
    BackgroundInOrder(cfg);
    var s3 := s2 + Opt(cfg.relativisticJets, Jets);
    AppendDeeper(s2, cfg.relativisticJets, Jets);
    AppendDeeper(s3, cfg.hawkingRadiation, HawkingRadiation);
  }

  /** The fixed background and the two ergosphere effects are in painter's order. */
  lemma BackgroundInOrder(cfg: Config)
    ensures var s := [Fade, StarField, DiskRings, BlackHole] +
      Opt(cfg.ergosphere, Ergosphere) + Opt(cfg.frameDragging, FrameDragging);
      |s| > 0 && Ascending(s) && s[0] == Fade && Depth(s[|s| - 1]) <= Depth(FrameDragging)
  {
    var s0: seq<Layer> := [Fade, StarField, DiskRings, BlackHole];
    AppendDeeper(s0, cfg.ergosphere, Ergosphere);
    AppendDeeper(s0 + Opt(cfg.ergosphere, Ergosphere), cfg.frameDragging, FrameDragging);
  }

  /** The draws of one frame: one per emitter and one tick input per particle. */
  datatype FrameDraws = FrameDraws(top: JetDraws, bottom: JetDraws, hawking: HawkingDraws, ticks: nat -> TickInput)

  /** Every particle's tick input carries its true distance to the centre. */
  predicate FrameFits(s: SceneState, fd: FrameDraws) {
    forall i :: 0 <= i < |s.particles| ==> Fits(s.particles[i], s.cfg, s.view, fd.ticks(i))
  }

  /** Every particle of the scene ticked once with its own draws; valid particles stay valid. */
  function TickAll(s: SceneState, fd: FrameDraws): (r: seq<Particle>)
    requires FrameFits(s, fd)
    ensures |r| == |s.particles|
    ensures forall i :: 0 <= i < |r| ==> r[i] == Tick(s.particles[i], s.cfg, s.view, fd.ticks(i))
    ensures (forall i :: 0 <= i < |s.particles| ==> s.particles[i].Valid()) ==>
      forall i :: 0 <= i < |r| ==> r[i].Valid()
  {
    seq(|s.particles|, i requires 0 <= i < |s.particles| && FrameFits(s, fd) =>
      Tick(s.particles[i], s.cfg, s.view, fd.ticks(i)))
  }

  /** Every star's phase advanced once. */
  function TwinkleAll(stars: seq<Star>): (r: seq<Star>)
    ensures |r| == |stars| && forall i :: 0 <= i < |stars| ==> r[i] == Twinkle(stars[i])
  {
    seq(|stars|, i requires 0 <= i < |stars| => Twinkle(stars[i]))
  }

  /** A jet's frame: updated while the jets are switched on, left as it is otherwise. */
  function JetFrame(on: bool, j: Jet, view: View, dr: JetDraws): (r: Jet)
    ensures !on ==> r == j
    ensures on ==> r == UpdateJet(j, view, dr)
    ensures WellFormedJet(j) ==> WellFormedJet(r)
  {
    if on then UpdateJet(j, view, dr) else j
  }

  /**
   The Hawking pool's frame: updated while switched on, left as it is
   otherwise; never above its cap, and well formed if it was.
   */
  function HawkingFrame(on: bool, sparks: seq<Spark>, view: View, rs: real, dr: HawkingDraws): (r: seq<Spark>)
    ensures !on ==> r == sparks
    ensures on ==> r == UpdateHawking(sparks, view, rs, dr)
    ensures |sparks| <= SparkCap ==> |r| <= SparkCap
    ensures WellFormedPool(sparks) ==> WellFormedPool(r)
  {
    if on then UpdateHawking(sparks, view, rs, dr) else sparks
  }

  /**
   The state change of one `animate` frame: the clock advances by 0.016,
   every star twinkles, the disk turns, the jets and the Hawking pool are
   updated only while switched on, and every particle ticks.
   */
  function Animate(s: SceneState, fd: FrameDraws): (r: SceneState)
    requires FrameFits(s, fd)
    ensures r.time == s.time + FrameTime && r.cfg == s.cfg && r.view == s.view
    ensures |r.particles| == |s.particles|
    ensures CountInSync(s) ==> CountInSync(r)
    ensures forall i :: 0 <= i < |s.particles| ==> r.particles[i] == Tick(s.particles[i], s.cfg, s.view, fd.ticks(i))
    ensures (forall i :: 0 <= i < |s.particles| ==> s.particles[i].Valid()) ==>
      forall i :: 0 <= i < |r.particles| ==> r.particles[i].Valid()
    ensures |r.stars| == |s.stars| && forall i :: 0 <= i < |s.stars| ==> r.stars[i] == Twinkle(s.stars[i])
    ensures r.disk == UpdateDisk(s.disk, s.cfg.accretionSpeed)
    ensures !s.cfg.relativisticJets ==> r.topJet == s.topJet && r.bottomJet == s.bottomJet
    ensures s.cfg.relativisticJets ==>
      r.topJet == UpdateJet(s.topJet, s.view, fd.top) && r.bottomJet == UpdateJet(s.bottomJet, s.view, fd.bottom)
    ensures !s.cfg.hawkingRadiation ==> r.hawking == s.hawking
    ensures s.cfg.hawkingRadiation ==>
      r.hawking == UpdateHawking(s.hawking, s.view, s.cfg.schwarzschildRadius, fd.hawking)
    ensures WellFormedJet(s.topJet) && WellFormedJet(s.bottomJet) ==>
      WellFormedJet(r.topJet) && WellFormedJet(r.bottomJet)
    ensures |s.hawking| <= SparkCap ==> |r.hawking| <= SparkCap
    ensures WellFormedPool(s.hawking) ==> WellFormedPool(r.hawking)
  {
    var on := s.cfg.relativisticJets;
    SceneState(s.cfg, s.view, TickAll(s, fd), TwinkleAll(s.stars), UpdateDisk(s.disk, s.cfg.accretionSpeed),
               JetFrame(on, s.topJet, s.view, fd.top), JetFrame(on, s.bottomJet, s.view, fd.bottom),
               HawkingFrame(s.cfg.hawkingRadiation, s.hawking, s.view, s.cfg.schwarzschildRadius, fd.hawking),
               s.time + FrameTime)
  }
}

=== FILE: trails.dfy ===
/**
 A particle's trail: the positions of its most recent ticks, oldest first,
 kept to at most ten entries by dropping the oldest when an eleventh arrives.
 */
module Trails {

  const MaxLen: nat := 10

  /** The last `n` entries of `s` (all of it when it is shorter). */
  function LastN<T>(s: seq<T>, n: nat): (r: seq<T>)
    ensures |r| == if |s| <= n then |s| else n
    ensures forall i :: 0 <= i < |r| ==> r[i] == s[|s| - |r| + i]
  {
    if |s| <= n then s else s[|s| - n..]
  }

  /**
   `trail.push(p)` followed by one `trail.shift()` when the trail has grown
   past ten: the trail becomes the last ten entries of the old trail
   extended by `p`.
   */
  function Push<T>(t: seq<T>, p: T): (r: seq<T>)
    ensures |t| <= MaxLen ==> r == LastN(t + [p], MaxLen) && |r| <= MaxLen
    ensures |r| >= 1 && r[|r| - 1] == p
  {
    var grown := t + [p];
    if |grown| > MaxLen then grown[1..] else grown
  }

  /** Two pushes onto the same trail differ at most in their newest entry. */
  lemma PushKeepsOlder<T>(t: seq<T>, p: T, q: T)
    ensures |Push(t, p)| == |Push(t, q)|
    ensures forall i :: 0 <= i < |Push(t, p)| - 1 ==> Push(t, p)[i] == Push(t, q)[i]
  {
    forall i | 0 <= i < |Push(t, p)| - 1
      ensures Push(t, p)[i] == Push(t, q)[i]
    {
      PushOlderEntry(t, p, i);
      PushOlderEntry(t, q, i);
    }
  }

  /** Below its newest entry, a pushed trail holds the old entries, shifted by one if the oldest was dropped. */
  lemma PushOlderEntry<T>(t: seq<T>, p: T, i: nat)
    requires i < |Push(t, p)| - 1
    ensures |Push(t, p)| == if |t| >= MaxLen then |t| else |t| + 1
    ensures Push(t, p)[i] == t[if |t| >= MaxLen then i + 1 else i]
  {
    var grown := t + [p];
    if |t| >= MaxLen {
      assert Push(t, p) == grown[1..];
      assert grown[1..][i] == grown[i + 1];
    } else {
      assert Push(t, p) == grown;
    }
  }

  /** The trail after one push per element of `ps`, in order. */
  function PushAll<T>(t: seq<T>, ps: seq<T>): seq<T>
    requires |t| <= MaxLen
    decreases |ps|
  {
    if ps == [] then t else PushAll(Push(t, ps[0]), ps[1..])
  }

  /**
   However many ticks a particle spends near the hole, its trail holds
   exactly the last ten positions pushed (or all of them, if fewer).
   */
  lemma {:induction false} PushAllKeepsLastTen<T>(t: seq<T>, ps: seq<T>)
    requires |t| <= MaxLen
    ensures PushAll(t, ps) == LastN(t + ps, MaxLen)
    decreases |ps|
  {
    if ps == [] {
      assert t + ps == t;
    } else {
      var t1 := Push(t, ps[0]);
      PushAllKeepsLastTen(t1, ps[1..]);
      assert t1 + ps[1..] == LastN(t + [ps[0]], MaxLen) + ps[1..];
      LastNAppend(t + [ps[0]], ps[1..]);
      assert (t + [ps[0]]) + ps[1..] == t + ps;
    }
  }

  /** Truncating to the last ten before appending does not change the last ten after. */
  lemma LastNAppend<T>(s: seq<T>, ps: seq<T>)
    ensures LastN(LastN(s, MaxLen) + ps, MaxLen) == LastN(s + ps, MaxLen)
  {
    var a := LastN(LastN(s, MaxLen) + ps, MaxLen);
    var b := LastN(s + ps, MaxLen);
    assert |a| == |b|;
    forall i | 0 <= i < |a|
      ensures a[i] == b[i]
    {
    }
  }
}

=== FILE: webgl.dfy ===
/**
 The three.js renderer (script-webgl.js) as far as its own logic goes: the
 values it writes into the accretion-disk shader, the black-hole sphere and
 the lens pass, the preset switch and slider handlers that set them, and the
 per-frame uniform updates. Its 2-D particle overlay uses the same particle
 as the Canvas-2D renderer. A GPU object that does not exist yet (before the
 scene is built) is `None`, as the source's `if (accretionDiskMesh)` guards
 allow.
 */
module WebglScene {
  import opened Wrappers
  import opened Geometry
  import opened SimConfig
  import opened Particles
  import opened Field

  /**
   Radius the black-hole sphere geometry is built with; the mesh scale is
   relative to it. The geometry takes the configured Schwarzschild radius at
   the moment it is built, and it is built once, at start-up, when that radius
   is 60; so `InitGpu(cfg)` describes the start-up build, where the unit scale
   is exact only for a configuration of radius 60 (`StartupSphereFits`).
   */
  const SphereRadius: real := 60.0

  /** Disk rotation per frame per unit of accretion speed, and the clock step per frame. */
  const SpinRate: real := 0.001
  const FrameTime: real := 0.016

  /** The accretion-disk shader's uniforms and the mesh's rotation about the view axis. */
  datatype DiskUniforms = DiskUniforms(time: real, innerRadius: real, outerRadius: real, speed: real, rotation: real)

  /** The black-hole sphere: its scale on the three axes and its shader clock. */
  datatype HoleMesh = HoleMesh(sx: real, sy: real, sz: real, time: real)

  /** The lens pass's uniforms. */
  datatype LensUniforms = LensUniforms(time: real, schwarzschildRadius: real, lensStrength: real)

  datatype Gpu = Gpu(disk: Option<DiskUniforms>, hole: Option<HoleMesh>, lens: Option<LensUniforms>)

  datatype WebglState = WebglState(cfg: Config, view: View, particles: seq<Particle>, gpu: Gpu, time: real)

  /** The disk's radii follow the Schwarzschild radius: 1.5 rs inside, 8 rs outside. */
  predicate DiskFitsRadius(d: DiskUniforms, rs: real) {
    d.innerRadius == rs * 1.5 && d.outerRadius == rs * 8.0
  }

  /** The sphere, scaled uniformly, has the Schwarzschild radius. */
  predicate SphereFitsRadius(h: HoleMesh, rs: real) {
    h.sx == h.sy == h.sz && SphereRadius * h.sx == rs
  }

  /**
   `initThreeJS()`: the disk shader sized from the configured radius with
   the configured speed, the sphere at unit scale (its geometry built at
   `SphereRadius`, the start-up radius), and the lens pass
   with the radius and the lens strength scaled to [0, 1] by dividing by 100.
   */
  function InitGpu(cfg: Config): (g: Gpu)
    ensures g.disk.Some? && g.hole.Some? && g.lens.Some?
    ensures DiskFitsRadius(g.disk.value, cfg.schwarzschildRadius) && g.disk.value.speed == cfg.accretionSpeed
    ensures g.hole.value.sx == 1.0 && g.hole.value.sy == 1.0 && g.hole.value.sz == 1.0
    ensures g.lens.value.schwarzschildRadius == cfg.schwarzschildRadius
    ensures g.lens.value.lensStrength * 100.0 == cfg.lensStrength
  {
    Gpu(Some(DiskUniforms(0.0, cfg.schwarzschildRadius * 1.5, cfg.schwarzschildRadius * 8.0, cfg.accretionSpeed, 0.0)),
        Some(HoleMesh(1.0, 1.0, 1.0, 0.0)),
        Some(LensUniforms(0.0, cfg.schwarzschildRadius, cfg.lensStrength / 100.0)))
  }

  /** The start-up sizes agree with the start-up radius of 60: the sphere needs no scaling. */
  lemma StartupSphereFits()
    ensures SphereFitsRadius(InitGpu(WebglDefaults).hole.value, WebglDefaults.schwarzschildRadius)
  {
  }

  /** `initParticles()`: the configured number of fresh particles. */
  function InitParticles(cfg: Config, view: View, draws: nat -> SpawnDraws): (ps: seq<Particle>)
    ensures |ps| == cfg.particleCount
    ensures forall i :: 0 <= i < |ps| ==> ps[i] == Spawn(view, draws(i)) && ps[i].Valid()
  {
    Repopulate(view, cfg.particleCount, draws)
  }

  /** The GPU half of a preset switch: disk radii and speed, uniform sphere scale rs / 60, lens radius. */
  function PresetGpu(g: Gpu, p: Preset): (r: Gpu)
    ensures r.disk.Some? <==> g.disk.Some?
    ensures r.hole.Some? <==> g.hole.Some?
    ensures r.lens.Some? <==> g.lens.Some?
  {
    var rs := p.schwarzschildRadius;
    Gpu(
      if g.disk.Some? then Some(g.disk.value.(innerRadius := rs * 1.5, outerRadius := rs * 8.0, speed := p.accretionSpeed))
      else None,
      if g.hole.Some? then Some(g.hole.value.(sx := rs / 60.0, sy := rs / 60.0, sz := rs / 60.0)) else None,
      if g.lens.Some? then Some(g.lens.value.(schwarzschildRadius := rs)) else None)
  }

  /**
   `applyPreset(name)` of the three.js renderer: unknown names change
   nothing; otherwise the configuration as in the Canvas-2D renderer, the
   particles rebuilt only when the count differs, and the GPU values set
   from the preset.
   */
  function ApplyPreset(s: WebglState, key: string, draws: nat -> SpawnDraws): (r: WebglState)
    ensures key !in Presets ==> r == s
    ensures key in Presets ==> r.cfg == WithPreset(s.cfg, key, Presets[key]) && r.gpu == PresetGpu(s.gpu, Presets[key])
    ensures key in Presets && Presets[key].particleCount != s.cfg.particleCount ==>
      r.particles == InitParticles(r.cfg, s.view, draws)
    ensures key in Presets && Presets[key].particleCount == s.cfg.particleCount ==> r.particles == s.particles
    ensures |s.particles| == s.cfg.particleCount ==> |r.particles| == r.cfg.particleCount
    ensures r.view == s.view && r.time == s.time
  {
    match PresetNamed(key)
    case None => s
    case Some(p) =>
      var cfg := WithPreset(s.cfg, key, p);
      var particles := if p.particleCount != s.cfg.particleCount then InitParticles(cfg, s.view, draws) else s.particles;
      s.(cfg := cfg, particles := particles, gpu := PresetGpu(s.gpu, p))
  }

  /**
   After a preset switch every existing GPU object agrees with the new
   radius: the disk spans 1.5 to 8 radii and turns at the preset's speed, the
   sphere has the radius, and the lens uses it.
   */
  lemma PresetSizesGpuToRadius(s: WebglState, key: string, draws: nat -> SpawnDraws)
    requires key in Presets
    ensures var r := ApplyPreset(s, key, draws);
      var rs := r.cfg.schwarzschildRadius;
      (r.gpu.disk.Some? ==> DiskFitsRadius(r.gpu.disk.value, rs) && r.gpu.disk.value.speed == r.cfg.accretionSpeed) &&
      (r.gpu.hole.Some? ==> SphereFitsRadius(r.gpu.hole.value, rs)) &&
      (r.gpu.lens.Some? ==> r.gpu.lens.value.schwarzschildRadius == rs)
  {
    var rs := Presets[key].schwarzschildRadius;
    assert SphereRadius * (rs / 60.0) == rs;
  }

  /** The mass slider: the configuration changes as in the Canvas-2D renderer and no GPU value is touched. */
  function OnMassInput(s: WebglState, mass: int): (r: WebglState)
    ensures r.cfg == SetMass(s.cfg, mass) && r == s.(cfg := r.cfg)
  {
    s.(cfg := SetMass(s.cfg, mass))
  }

  /**
   Unlike a preset switch, the mass slider leaves the disk and the sphere at
   the old radius: from start-up, a mass of 200 gives a radius of 80 while
   the disk still starts at 90 and the sphere keeps radius 60.
   */
  lemma MassSliderLeavesDiskAtOldRadius(view: View, draws: nat -> SpawnDraws)
    ensures var s := WebglState(WebglDefaults, view, InitParticles(WebglDefaults, view, draws), InitGpu(WebglDefaults), 0.0);
      var r := OnMassInput(s, 200);
      r.cfg.schwarzschildRadius == 80.0 &&
      !DiskFitsRadius(r.gpu.disk.value, r.cfg.schwarzschildRadius) &&
      !SphereFitsRadius(r.gpu.hole.value, r.cfg.schwarzschildRadius)
  {
  }

  /** The accretion-speed slider: the configuration and, when it exists, the disk's speed uniform. */
  function OnAccretionInput(s: WebglState, speed: int): (r: WebglState)
    ensures r.cfg == s.cfg.(accretionSpeed := speed as real)
    ensures r.gpu.disk.Some? <==> s.gpu.disk.Some?
    ensures r.gpu.disk.Some? ==> r.gpu.disk.value == s.gpu.disk.value.(speed := speed as real)
    ensures r == s.(cfg := r.cfg, gpu := r.gpu) && r.gpu == s.gpu.(disk := r.gpu.disk)
  {
    var disk := if s.gpu.disk.Some? then Some(s.gpu.disk.value.(speed := speed as real)) else None;
    s.(cfg := s.cfg.(accretionSpeed := speed as real), gpu := s.gpu.(disk := disk))
  }

  /**
   The particle-count slider: resize against the configured count, then
   record the new count. Growth appends fresh particles after the old ones;
   otherwise the first `newCount` particles are kept.
   */
  method OnParticleCountInput(s: WebglState, newCount: nat, draws: nat -> SpawnDraws) returns (r: WebglState)
    ensures r.cfg == s.cfg.(particleCount := newCount)
    ensures r == s.(cfg := r.cfg, particles := r.particles)
    ensures |s.particles| == s.cfg.particleCount ==> |r.particles| == newCount
    ensures newCount <= s.cfg.particleCount ==> r.particles == s.particles[..Min(newCount, |s.particles|)]
    ensures newCount > s.cfg.particleCount ==>
      r.particles == s.particles + Repopulate(s.view, newCount - s.cfg.particleCount, draws)
  {
    var ps := ResizeByCount(s.particles, s.cfg.particleCount, newCount, i => Spawn(s.view, draws(i)));
    r := s.(cfg := s.cfg.(particleCount := newCount), particles := ps);
  }

  /**
   The state change of one `animate` frame: the clock advances, the sphere
   and disk clocks follow it, the lens pass (when the GLSL lens is on) takes
   the clock, the current radius and the lens strength over 100, the disk
   turns by 0.001 per unit of accretion speed, and every particle ticks.
   */
  function Animate(s: WebglState, ticks: nat -> TickInput): (r: WebglState)
    requires forall i :: 0 <= i < |s.particles| ==> Fits(s.particles[i], s.cfg, s.view, ticks(i))
    ensures r.time == s.time + FrameTime && r.cfg == s.cfg && r.view == s.view
    ensures |r.particles| == |s.particles|
    ensures forall i :: 0 <= i < |s.particles| ==> r.particles[i] == Tick(s.particles[i], s.cfg, s.view, ticks(i))
    ensures r.gpu.disk.Some? <==> s.gpu.disk.Some?
    ensures r.gpu.disk.Some? ==>
      r.gpu.disk.value.time == r.time &&
      r.gpu.disk.value.rotation == s.gpu.disk.value.rotation + SpinRate * s.cfg.accretionSpeed &&
      r.gpu.disk.value.innerRadius == s.gpu.disk.value.innerRadius &&
      r.gpu.disk.value.outerRadius == s.gpu.disk.value.outerRadius
    ensures r.gpu.hole.Some? <==> s.gpu.hole.Some?
    ensures r.gpu.hole.Some? ==> r.gpu.hole.value == s.gpu.hole.value.(time := r.time)
    ensures s.cfg.glslLens && s.gpu.lens.Some? ==>
      r.gpu.lens == Some(LensUniforms(r.time, s.cfg.schwarzschildRadius, s.cfg.lensStrength / 100.0))
    ensures !s.cfg.glslLens ==> r.gpu.lens == s.gpu.lens
  {
    var time := s.time + FrameTime;
    var g := s.gpu;
    var hole := if g.hole.Some? then Some(g.hole.value.(time := time)) else None;
    var disk := if g.disk.Some? then
      Some(g.disk.value.(time := time, rotation := g.disk.value.rotation + SpinRate * s.cfg.accretionSpeed))
    else None;
    var lens := if g.lens.Some? && s.cfg.glslLens then
      Some(LensUniforms(time, s.cfg.schwarzschildRadius, s.cfg.lensStrength / 100.0))
    else g.lens;
    var particles := seq(|s.particles|, i requires 0 <= i < |s.particles| && Fits(s.particles[i], s.cfg, s.view, ticks(i)) =>
      Tick(s.particles[i], s.cfg, s.view, ticks(i)));
    WebglState(s.cfg, s.view, particles, Gpu(disk, hole, lens), time)
  }

  /** With the GLSL lens on, one frame after the mass slider the lens already uses the new radius. */
  lemma LensCatchesUpWithinAFrame(s: WebglState, mass: int, ticks: nat -> TickInput)
    requires s.cfg.glslLens && s.gpu.lens.Some?
    requires forall i :: 0 <= i < |s.particles| ==> Fits(s.particles[i], SetMass(s.cfg, mass), s.view, ticks(i))
    ensures Animate(OnMassInput(s, mass), ticks).gpu.lens.value.schwarzschildRadius == 60.0 * (mass as real / 150.0)
  {
  }
}

=== FILE: wrappers.dfy ===
/** The optional-value datatype used for preset lookups. */
module Wrappers {

  datatype Option<+T> = None | Some(value: T)
}
